=== FILE: README.md ===
# JSON-RPC 2.0 gateway, modelled in Dafny

This project models the sequential core of a two-compartment JSON-RPC 2.0 gateway. An *engine* client posts requests to an *application* server's `/rpc` endpoint. The server answers unary calls with one JSON-RPC response, and streaming calls with a server-sent-event stream that the client can cancel by id.

What is modelled:

- **Wire codec** (`shared/jsonrpc.py`): error codes, the error object, request validation in `from_dict`, and response serialisation. The codec is modelled after sections 4, 5 and 5.1 of the JSON-RPC 2.0 Specification, with the source's departures from it. A request without `id`, which section 4.1 makes a Notification that must not be answered, is given a fresh uuid id and answered; so is a request whose `id` is explicitly null, which is answered under that fresh id rather than under null. Every other request id becomes a string (`str(id)`). `params` must be an object, so array params are rejected. An error reply for a missing or empty id carries the string `"null"` rather than JSON null.
- **Method registry** (`app/dispatcher.py`).
- **Stream manager** (`app/streaming.py`): a sequential state machine of runs, entries, cancel scopes and a bounded FIFO buffer.
- **Endpoint** (`app/server.py`): classification order and SSE framing.
- **Example handlers** (`app/handlers.py`).
- **Engine client** (`engine/client.py`): request building, attempt counting, response interpretation, SSE decoding and `cancel_stream`.

Modules:

| file | module | what it holds |
|---|---|---|
| `wrappers.dfy` | `Wrappers` | `Option` and `Result` |
| `pytext.dfy` | `PyText` | `isspace`, `strip`, `startswith`, `str(int)`, and the shape of `uuid4().hex` |
| `json.dfy` | `Json` | JSON values as Python sees them after `json.loads`: `None`, `bool`, `int`, `str`, `list`, `dict`; plus `dict.get`, truthiness, `type(v).__name__` and `str(v)` |
| `jsonrpc.dfy` | `JsonRpc` | the wire codec |
| `sequtil.dfy` | `SeqUtil` | distinctness, and removal from a sequence of names |
| `dispatcher.dfy` | `Dispatcher` | the registry and `dispatch` |
| `streaming.dfy` | `Streaming` | the stream bookkeeping |
| `handlers.dfy` | `Handlers` | `echo`, `add`, `generate`, `generate_stream`, the cancel control handler, the registry as populated |
| `server.dfy` | `Server` | `rpc_endpoint`, `_sse_generator`, the headers of the streaming response |
| `client.dfy` | `Client` | the engine client |
| `gateway.dfy` | `Gateway` | both compartments together |

How the environment is represented:

- **Identifiers.** The environment draws the identifiers: `uuid4().hex` is a parameter of type `Uuid` (32 lower-case hex digits).
- **JSON text.** `json.loads` of a request body is an outcome `Parsed`, either a value or `Malformed`. The client's `json.dumps`/`json.loads` are function parameters. The end-to-end stream lemma assumes of them only what the standard library guarantees for compact output: a non-empty single line, with no surrounding whitespace, that parses back to the value.
- **Concurrency.** Each anyio task step is one atomic action on a run: handler start, emit, cancel (by `cancel_stream` or the timeout), handler end, consumer take, feed end. Any interleaving of enabled actions is a possible execution. A handler blocked on a full buffer is one whose emit is not enabled.
- **Entry identity.** The manager keeps every run it ever started. A run's index stands for the identity of its `_StreamEntry` object, so the model can tell "the entry this call inserted" from "whatever entry the map holds for this id".
- **The example handlers' environment.** For `generate_stream`, the environment is the point at which cancellation is requested (`cancelAt`: after how many accepted events, or never). For `call`, it is the outcome of each attempt (`attempt(i)`).

A `generate` request with three tokens yields six frames: the start frame, three token events, the handler's own `done` event, and the end frame (`Server.GenerateScenario`).

## Model

| member | source | states |
|---|---|---|
| `JsonRpc.ErrorToDict` | shared/shared/jsonrpc.py:30-34 | the error object always has `code` and `message`, and has `data` exactly when data is not None |
| `JsonRpc.FromDict` | shared/shared/jsonrpc.py:55-70 | each validation message is returned exactly when its check is the first in the order object, `jsonrpc == "2.0"`, non-empty string `method`, object `params` to fail; success exactly for well-formed envelopes; absent `params` become `{}`; an absent or null id becomes the fresh id, any other id becomes `str(id)`; an empty-string id passes through |
| `JsonRpc.RequestToDict` | shared/shared/jsonrpc.py:51-52 | the serialised request has exactly the keys `jsonrpc`, `method`, `params` and `id`, with the id and params as given; `FromDictRoundTrip` is its inverse |
| `JsonRpc.FromDictRoundTrip` | shared/shared/jsonrpc.py:51-70 | validating the serialised form of any request with a non-empty method and version "2.0" gives back the same request, id included |
| `JsonRpc.ResponseToDict` | shared/shared/jsonrpc.py:82-88 | the serialised response has exactly `jsonrpc`, `id`, and `error` if an error is set, otherwise `result` |
| `JsonRpc.SuccessResponse` | shared/shared/jsonrpc.py:91-93 | a success serialises to exactly version, the given id and the result verbatim |
| `JsonRpc.FailResponse` | shared/shared/jsonrpc.py:95-102 | a missing or empty id becomes "null" and no failure has an empty id; the error carries code, message and data; the serialised form has no `result` |
| `Dispatcher.NewRegistry` | app/app/dispatcher.py:43-44 | a new registry has no methods and nothing registered |
| `Dispatcher.Register` | app/app/dispatcher.py:47-76 | after registering, the name is registered with that handler; every other name keeps its handler and status; a known name keeps its position in `methods`, a new one is appended (`methods`, `is_registered` and `_handlers.get` are read through `Methods`, `IsRegistered` and `Lookup`) |
| `Dispatcher.Dispatch` | app/app/dispatcher.py:60-68 | dispatch fails exactly for unregistered names, with `MethodNotFoundError(name)` and code -32601; otherwise the registered handler is invoked on the params unchanged and its outcome returned |
| `Dispatcher.RegisterAllOrder` | app/app/dispatcher.py:47-76 | after any history of registrations, `methods` lists the names in first-registration order without repeats, the registered names are exactly those of the history, and each maps to the handler registered last |
| `Streaming.NewRun` | app/app/streaming.py:99-104 | a run starts with a not-done entry without a cancel scope, and nothing queued or delivered |
| `Streaming.StartHandler` | app/app/streaming.py:106-110 | the handler task attaches a fresh, not yet cancelled scope to the entry |
| `Streaming.Emit` | app/app/streaming.py:58-65 | `emit` after cancellation changes nothing; otherwise the event is queued behind every earlier one; buffer bound and ordering invariant are kept |
| `Streaming.CancelScope` | app/app/streaming.py:133-134 | `scope.cancel()` makes `ctx.cancelled` true and changes nothing else |
| `Streaming.Finish` | app/app/streaming.py:112-116 | however the handler ended, the entry becomes done and the feed closed, with nothing queued lost |
| `Streaming.Receive` | app/app/streaming.py:121-123 | the consumer gets the oldest queued event, so delivered events are always a prefix of the accepted ones |
| `Streaming.EndRun` | app/app/streaming.py:118-125 | once the feed has ended, everything accepted has been delivered |
| `Streaming.ReplayAccepts` | app/app/streaming.py:54-65 | under any schedule, the events that entered the buffer are exactly the emits before the first cancellation, and cancellation is never undone |
| `Streaming.NoCancelEmitsAll` | app/app/streaming.py:58-65 | with no cancellation in a schedule, every emitted event enters the feed |
| `Streaming.ReplayAppend` | app/app/streaming.py:54-125 | replaying two schedules in a row is replaying their concatenation |
| `Streaming.ReplayLockstep` | app/app/streaming.py:58-65 | with the consumer taking each event as soon as it is emitted, a running uncancelled run accepts and delivers every event in order and its buffer is empty again after each |
| `Streaming.ServeAllDelivers` | app/app/streaming.py:99-125 | a fresh run that starts, emits the given events in lock step with the consumer and returns is a valid schedule: it drains, having delivered exactly those events |
| `Streaming.StreamDelivery` | app/app/streaming.py:58-123 | whatever the interleaving, a drained run has delivered exactly the events emitted before the first cancellation, in emission order, and with no cancellation all of them |
| `Streaming.NewManager` | app/app/streaming.py:75-82 | a new manager holds no entry |
| `Streaming.RunStream` | app/app/streaming.py:99-104 | an empty or missing stream id is replaced by the fresh id; the map then holds a not-done entry without scope for the id, before anything is yielded; other ids are unaffected; the manager invariant is kept |
| `Streaming.StartRun` | app/app/streaming.py:106-110 | starting a handler changes only its run and keeps the manager invariant |
| `Streaming.EmitTo` | app/app/streaming.py:58-65 | an emit changes only its run and keeps the manager invariant |
| `Streaming.Timeout` | app/app/streaming.py:108 | the timeout cancels the run's scope and keeps the manager invariant |
| `Streaming.FinishRun` | app/app/streaming.py:112-116 | a handler ending changes only its run and keeps the manager invariant |
| `Streaming.ReceiveFrom` | app/app/streaming.py:121-123 | a receive changes only its run and keeps the manager invariant |
| `Streaming.EndOfFeed` | app/app/streaming.py:118-125 | after the feed is drained, the run is over and its own entry leaves the map; every other entry stays |
| `Streaming.CancelStream` | app/app/streaming.py:128-137 | `cancel_stream` answers true exactly when the map holds a not-done entry with a scope for the id; then that scope is cancelled and the map unchanged; otherwise nothing changes |
| `Streaming.CancelSucceedsOnRunning` | app/app/streaming.py:128-137 | in a consistent manager, cancel succeeds exactly on an id whose newest run has a running handler |
| `Streaming.CancelThenEmitIsDropped` | app/app/streaming.py:63-64 | after a successful cancel, the stream's handler can still call `emit`, and it is a no-op |
| `Streaming.LiveAmong` | app/app/streaming.py:141 | the filter keeps exactly the listed ids whose entries are not done, without repeats |
| `Streaming.ActiveStreams` | app/app/streaming.py:139-141 | `active_streams` holds exactly the ids whose entries are in the map and not done, each once |
| `Streaming.EndOfFeedAsWritten` | app/app/streaming.py:125 | the source's final `pop` removes the id from the map whichever entry it holds |
| `Streaming.EndOfFeedAgrees` | app/app/streaming.py:125 | the source's `pop` and the owner-only pop leave the same manager exactly when no newer run has taken the id over: the map no longer holds the id, or holds the run that just ended |
| `Streaming.ReusedIdPopDropsLiveStream` | app/app/streaming.py:99-125 | with an id reused for a second stream, the first stream's `pop` drops the second, still running stream from the map; popping only its own entry keeps the second cancellable |
| `Handlers.Add` | app/app/handlers.py:30-35 | with missing operands counting as 0, `add` succeeds exactly when both operands are integers (booleans included), both strings or both lists; two integers give their sum, two strings or two lists their concatenation; every success is a one-key `result` object; every other pair raises a non-dispatch error |
| `Handlers.CancelControl` | app/app/handlers.py:80-87 | a missing or falsy `stream_id` gives `{cancelled: false, error: "missing stream_id"}` with the manager untouched; a string id gives `{cancelled: cancel_stream(id), stream_id: id}` with the manager as `cancel_stream` leaves it; a non-string id never touches the manager: an int or boolean id gives `{cancelled: false, stream_id: id}`, since no key equals it, and a list or dict id raises the unhashable-type `TypeError` |
| `Handlers.Invoke` | app/app/handlers.py:24-87 | `echo` returns the params unchanged, `add` answers as `Add`, the unary `generate` returns "use streaming endpoint", and the control method answers as `CancelControl`; only the control method changes the stream manager, and every handler keeps it consistent |
| `Handlers.AppRegistry` | app/app/handlers.py:18-80 | the registry lists `echo`, `add`, `generate`, `engine.stream.cancel` in that order, each with its handler |
| `Handlers.AppRegistryByDecorators` | app/app/handlers.py:24-80 | that registry is the one the four decorators build when applied in order |
| `Handlers.StreamHandlersMatchStreamingMethods` | app/app/handlers.py:92-99 | `get_stream_handler` finds a handler exactly for the streaming methods |
| `Handlers.TokenLoop` | app/app/handlers.py:60-71 | the token loop emits at most the remaining count of token events, each carrying its index, `tok_<index>` and the prompt; without cancellation and with a valid delay it emits all of them; with cancellation requested after `k` events and a valid delay it emits exactly the token events from its start index up to `min(k, tokens)`, since `ctx.cancelled` is checked at the top of each iteration; it raises only on an invalid delay, and with an invalid delay and a token still to emit (cancellation not yet requested) it emits exactly that one token event and then raises from the first sleep |
| `Handlers.GenerateStream` | app/app/handlers.py:54-74 | a non-integer `tokens` raises before anything is emitted; without cancellation and with a valid delay it emits `tokens` token events indexed from 0 and then `done` with the total, and so it does for a `tokens` of 0 or less whatever the delay, since it never sleeps; with an invalid delay (cancellation not requested before the first event) and at least one token it emits token 0 and raises from the first sleep, with no `done`; with cancellation requested after `k <= tokens` events, exactly `k` token events (for a valid delay), nothing beyond the cancellation point and no `done`; with cancellation requested only after more than `tokens` events, the full run with `done` |
| `Handlers.CancelTruncates` | app/app/handlers.py:60-74 | whenever cancellation comes, the emitted events are a prefix of the uncancelled run's |
| `Server.ErrorReply` | app/app/server.py:42-45 | an error reply is one response whose error has the given code and message and no data, under the given id or "null" when the id is missing or empty, serialised without `result` |
| `Server.HandlerErrorReply` | app/app/server.py:102-106 | a handler's `MethodNotFoundError` is answered with -32601 "Method not found: <name>", any other exception with -32603 "Internal error: <text>", both under the request's id |
| `Server.RpcEndpoint` | app/app/server.py:67-106 | classification order: malformed body gives -32700 "Parse error"; a rejected envelope gives -32600 with the validator's message, both under id "null"; a streaming method gives a stream under the fresh stream id; an unknown method gives -32601; a handler's result is returned verbatim; a handler's `MethodNotFoundError` gives -32601 and any other exception -32603 "Internal error: ..." |
| `Server.ReplyErrors` | app/app/server.py:67-106 | every error reply carries one of -32700, -32600, -32601, -32603, and the first two carry id "null" |
| `Server.ReplyKeepsRequestId` | app/app/server.py:79-106 | a unary reply is under the request's id, except that an error reply turns an empty id into "null" |
| `Server.StreamingIgnoresRegistry` | app/app/server.py:86-95 | a streaming reply does not depend on the registry, and its method always has a stream handler |
| `Server.SseFrames` | app/app/server.py:48-61 | a stream is the start frame with the stream id, every delivered event in order, and the end frame with the same id; with no stream handler, a single error frame |
| `Server.StreamHeaders` | app/app/server.py:90-93 | the streaming response has exactly the headers `Cache-Control: no-cache` and `X-Stream-Id` holding the reply's stream id |
| `Server.HeaderNamesFramedStream` | app/app/server.py:86-95 | the `X-Stream-Id` header holds the fresh stream id that the first and last frames carry |
| `Server.EchoScenario` | app/app/handlers.py:24-27 | `echo` of `{"msg": "hi"}` under id "1" answers that object under id "1" |
| `Server.AddScenario` | app/app/handlers.py:30-35 | `add` of 3 and 4 answers `{"result": 7}` under the generated id |
| `Server.GenerateScenario` | app/app/server.py:86-95 | `generate` with three tokens takes the streaming path and frames start, tokens 0 to 2, done, end |
| `Server.ThreeTokens` | app/app/handlers.py:54-74 | `generate_stream` with three tokens emits three token events and `done` |
| `Server.MalformedScenario` | app/app/server.py:71-75 | a body that does not parse gives -32700 "Parse error" under id "null" |
| `Client.BuildRequest` | engine/engine/client.py:91 | the request carries the method, the params or `{}`, the generated id and version "2.0" |
| `Client.MaxAttempts` | engine/engine/client.py:78 | at most `max_retries` attempts, and at least one |
| `Client.Retry` | engine/engine/client.py:96-99 | between 1 and the attempt budget attempts; every attempt but the last failed with a network or timeout error; stopping early means the last outcome is not retryable; the last outcome is what the caller sees |
| `Client.Interpret` | engine/engine/client.py:101-106 | a body object whose `error` is present and not null gives `RpcError` with its code, message and data (null when absent), if the error has that shape; otherwise the `result`, null when absent; a non-object body fails |
| `Client.Settle` | engine/engine/client.py:98-99 | a 2xx answer is interpreted, any other status raises, and a transport error is re-raised |
| `Client.Call` | engine/engine/client.py:86-106 | the payload is the serialised request; the outcome is the last attempt's; every earlier attempt was a retried transport failure; stopping before the attempt budget is spent means the last attempt was not retryable |
| `Client.CancelRequest` | engine/engine/client.py:147-149 | `cancel_stream(id)` is the call of `engine.stream.cancel` with `{"stream_id": id}` |
| `Client.Lines` | engine/engine/client.py:132 | there is one line more than there are line breaks (the `str.splitlines` separators); no line contains a break; joining the lines with the breaks between them gives back the text; a text without breaks is a single line |
| `Client.SplitLines` | engine/engine/client.py:132 | `aiter_lines` yields nothing for an empty body and no empty line after a final break; otherwise the same lines as `Lines`, none of which contains a break |
| `Client.LastLineEmpty` | engine/engine/client.py:132 | the last split line is empty exactly when the text is empty or ends with a break |
| `Client.DecodeSplitLines` | engine/engine/client.py:132-141 | decoding the lines `aiter_lines` yields gives the same events as decoding every split line, trailing empty one included |
| `Client.LinesAfterLine` | engine/engine/client.py:132 | a text without breaks, followed by a break, is the first line |
| `Client.LineEvents` | engine/engine/client.py:133-141 | a line yields at most one event; it yields none exactly when it is not a `data:` line or `loads` rejects its stripped payload (`json.loads` rejects the empty payload); the event it yields is the parsed payload |
| `Client.DecodeSse` | engine/engine/client.py:130-141 | decoding yields at most one event per line |
| `Client.DecodeSseCons` | engine/engine/client.py:132-141 | decoding takes the first line's events, then decodes the rest |
| `Client.DecodeSseOnePerLine` | engine/engine/client.py:132-141 | when every line carries one event, the decoder yields one event per line, the i-th being the i-th line's |
| `Client.DecodeSseAppend` | engine/engine/client.py:132-141 | decoding works line by line: it distributes over concatenation, so events come out in arrival order |
| `Client.DecodeSkipsNonData` | engine/engine/client.py:133-135 | lines that are not `data:` lines yield nothing |
| `Client.DataLinePayload` | engine/engine/client.py:133-136 | `DataPayload` of `data: <d>` is `d` for a stripped, non-empty `d` |
| `Gateway.RequestReachesServer` | engine/engine/client.py:91-92 | the server accepts every request the client builds with a non-empty method, under the client's id |
| `Gateway.ResponseReachesClient` | engine/engine/client.py:101-106 | the client reads back every serialised response: the result of a success, or the code, message and data of an error |
| `Gateway.UnaryCallThroughEndpoint` | app/app/server.py:97-106 | a unary call through the endpoint is answered under the client's id; an unknown method reaches the client as -32601; a handler's result reaches it verbatim, and a handler's error as an `RpcError` |
| `Gateway.CancelThroughEndpoint` | engine/engine/client.py:147-149 | the client's cancel returns `{cancelled, stream_id}` where `cancelled` is true exactly when the id names a live stream with a scope; exactly then that stream is cancelled, and otherwise the manager is unchanged |
| `Gateway.SseRoundTrip` | app/app/server.py:48-61 | the client's decoder gives back exactly the frames the server's generator wrote, in order, when the JSON codec round-trips them |
| `Gateway.StreamThroughGateway` | engine/engine/client.py:130-141 | after any schedule that drains a stream, decoding the lines `aiter_lines` yields for the body gives the start frame, every event emitted before cancellation in order, and the end frame |
| `Gateway.GenerateThroughGateway` | app/app/handlers.py:54-74 | for any params, `generate` served in lock step without cancellation drains, and decoding the lines `aiter_lines` yields for the body gives the start frame, every event `generate_stream` emits, and the end frame |

## Left out

- Floating-point JSON numbers are not modelled. The example delay of 0.05 is replaced by an integer delay.
- Json.PyStr: `str(v)` of a list or dict id is a placeholder text, not Python's `repr`.
- Streaming.Slots: a `buffer_size` of 0 (anyio's hand-over to a waiting receiver) is treated as one slot.
- Time is not modelled: the 120-second timeout is an action (`Streaming.Timeout`) that may happen at any point of a run.
- `anyio.sleep` delays are not modelled either. A delay only matters in that an invalid one makes the handler raise.
- The consumer disconnecting early (the generator is closed before the feed ends) is not modelled. In the source, `run_stream` then never reaches its `pop`, so the entry stays in the map.
- Handlers.GenerateStream: a handler that raises is recorded only as `raised`. The exception text is only logged by the source.
- HTTP transport, Starlette, uvicorn, `create_app`, status code 200 of error replies, the `text/event-stream` media type, and client connection pooling and lifecycle are not modelled. These are library plumbing.
- The stream request's retry of connection establishment is not modelled separately. It is the same retry loop as `call`'s.
- JSON text parsing and rendering (`json.loads`, `json.dumps`) are not modelled. The client side's only assumption about them is `Gateway.Encodes`.
- Client.SplitLines: it splits at every separator `str.splitlines` uses, but treats `\r\n` as two breaks, so an empty line appears between them. The decoder skips that line, so decoding is unaffected.
- The exponential backoff waits between attempts are not modelled. Only attempts are counted.
- The text of `RpcError`'s message (`[code] message`) is not modelled.
- Logging is not modelled.
- The demo entry points are not part of this model.
- consensus/consensus/main.py is not part of this model. It is process start-up and external services.
- `INVALID_PARAMS` is defined in the source but never used there.

## Findings

| source | as written | input that shows it | evidently intended | confidence | as-written member | corrected member |
|---|---|---|---|---|---|---|
| app/app/streaming.py:125 | `run_stream` ends with `self._streams.pop(stream_id, None)`, which removes whatever entry the map holds for the id | `run_stream(h, p, stream_id="x")` finishes while a second `run_stream(h, p, stream_id="x")` is still running: the second, still running stream vanishes from the map that `cancel_stream` and `active_streams` consult, so it can no longer be cancelled by id | remove the entry only if it is still the one this call inserted | not executed | `Streaming.ReusedIdPopDropsLiveStream` | `Streaming.EndOfFeed` |

=== FILE: client.dfy ===
/**
 * The engine's client: build a request envelope, post it with bounded
 * retries of connection-level failures, interpret the response body, decode
 * an event stream, and ask the application to cancel a stream.
 */
module Client {
  import opened Wrappers
  import opened Json
  import opened PyText
  import opened JsonRpc

  /** The name of the application's control method for cancellation. */
  const CancelMethod: string := "engine.stream.cancel"

  /** `JsonRpcRequest(method=..., params=params or {})` with a generated id. */
  function BuildRequest(methodName: string, params: Option<Object>, freshId: Uuid): (r: Request)
    ensures r.methodName == methodName && r.id == freshId && r.jsonrpc == Version
    ensures r.params == if params.Some? then params.value else map[]
  {
    Request(methodName, params.GetOr(map[]), freshId, Version)
  }

  // ---------------------------------------------------------------------
  // Transport and retries.

  /** What one POST attempt produced: a response, or a transport exception. */
  datatype Attempt =
    | Answered(status: int, body: Parsed)
    | NetworkError
    | TimeoutError
    | OtherTransportError

  /** `retry_if_exception_type((NetworkError, TimeoutException))` */
  predicate Retryable(a: Attempt) {
    a.NetworkError? || a.TimeoutError?
  }

  /** `stop_after_attempt(n)` allows at most `n` attempts, and always the first. */
  function MaxAttempts(maxRetries: int): (r: nat)
    ensures r >= 1
    ensures maxRetries >= 1 ==> r == maxRetries
  {
    if maxRetries >= 1 then maxRetries else 1
  }

  /**
   * The retry loop of `call`: `attempt(i)` is what the `i`-th attempt
   * (from 0) produces. Attempts go on while the last one failed with a
   * retryable error and the attempt budget is not used up; the last outcome
   * is what the caller sees (`reraise=True`).
   */
  method Retry(maxRetries: int, attempt: nat -> Attempt) returns (last: Attempt, count: nat)
    ensures 1 <= count <= MaxAttempts(maxRetries)
    ensures last == attempt(count - 1)
    ensures forall i :: 0 <= i < count - 1 ==> Retryable(attempt(i))
    ensures count < MaxAttempts(maxRetries) ==> !Retryable(last)
  {
    last := attempt(0);
    count := 1;
    while Retryable(last) && count < maxRetries
      invariant 1 <= count <= MaxAttempts(maxRetries)
      invariant last == attempt(count - 1)
      invariant forall i :: 0 <= i < count - 1 ==> Retryable(attempt(i))
      decreases maxRetries - count
    {
      last := attempt(count);
      count := count + 1;
    }
  }

  // ---------------------------------------------------------------------
  // Interpreting a response.

  /** What `call` returns or raises. */
  datatype CallOutcome =
    | Returned(result: Value)
    | RpcFailure(code: Value, message: Value, data: Value)   // `RpcError`
    | HttpStatusFailure(status: int)                          // `raise_for_status`
    | TransportFailure(attempt: Attempt)                      // the reraised transport exception
    | Undecodable                                             // the body is not a usable JSON-RPC object

  /** `JsonRpcError(**e)` succeeds: a dict with `code` and `message` and no other key but `data`. */
  predicate ErrorShaped(e: Value) {
    e.Obj? && e.fields.Keys <= {"code", "message", "data"} && "code" in e.fields && "message" in e.fields
  }

  /**
   * The body handling of `call`: an error member that is present and not null
   * becomes an `RpcError`; otherwise the result member (null when absent) is
   * returned. A body that is not an object fails: `in`, indexing or `get` on
   * it raises.
   */
  function Interpret(body: Parsed): (r: CallOutcome)
    ensures r.Returned? <==>
              body.Parsed? && body.value.Obj? && Get(body.value.fields, "error", Null) == Null
    ensures r.Returned? ==> r.result == Get(body.value.fields, "result", Null)
    ensures r.RpcFailure? <==>
              body.Parsed? && body.value.Obj? && "error" in body.value.fields && ErrorShaped(body.value.fields["error"])
    ensures r.RpcFailure? ==>
              var e := body.value.fields["error"].fields;
              r == RpcFailure(e["code"], e["message"], Get(e, "data", Null))
    ensures r.Returned? || r.RpcFailure? || r.Undecodable?
  {
    match body
    case Malformed => Undecodable
    case Parsed(data) =>
      if !data.Obj? then Undecodable
      else if "error" in data.fields && data.fields["error"] != Null then
        var e := data.fields["error"];
        if ErrorShaped(e) then RpcFailure(e.fields["code"], e.fields["message"], Get(e.fields, "data", Null))
        else Undecodable
      else Returned(Get(data.fields, "result", Null))
  }

  /** The outcome of the last attempt: a 2xx response is interpreted, anything else is raised. */
  function Settle(a: Attempt): (r: CallOutcome)
    ensures a.Answered? && 200 <= a.status < 300 ==> r == Interpret(a.body)
    ensures a.Answered? && !(200 <= a.status < 300) ==> r == HttpStatusFailure(a.status)
    ensures !a.Answered? ==> r == TransportFailure(a)
  {
    match a
    case Answered(status, body) => if 200 <= status < 300 then Interpret(body) else HttpStatusFailure(status)
    case _ => TransportFailure(a)
  }

  /**
   * `call(method, params)`: the payload posted on every attempt, the
   * outcome, and how many attempts were made.
   */
  method Call(methodName: string, params: Option<Object>, freshId: Uuid, maxRetries: int, attempt: nat -> Attempt)
    returns (payload: Object, outcome: CallOutcome, count: nat)
    ensures payload == RequestToDict(BuildRequest(methodName, params, freshId))
    ensures 1 <= count <= MaxAttempts(maxRetries)
    ensures outcome == Settle(attempt(count - 1))
    ensures forall i :: 0 <= i < count - 1 ==> Retryable(attempt(i)) && Settle(attempt(i)).TransportFailure?
    ensures count < MaxAttempts(maxRetries) ==> !Retryable(attempt(count - 1))
  {
    payload := RequestToDict(BuildRequest(methodName, params, freshId));
    var last;
    last, count := Retry(maxRetries, attempt);
    outcome := Settle(last);
  }

  /** `cancel_stream(stream_id)` is the unary call of the control method with the id as its only parameter. */
  function CancelRequest(streamId: string, freshId: Uuid): (r: Request)
    ensures r == BuildRequest(CancelMethod, Some(map["stream_id" := Str(streamId)]), freshId)
  {
    Request(CancelMethod, map["stream_id" := Str(streamId)], freshId, Version)
  }

  // ---------------------------------------------------------------------
  // Decoding an event stream.

  /**
   * The line boundaries of `str.splitlines`, which `aiter_lines` follows:
   * line feed, carriage return, vertical tab, form feed, the file, group and
   * record separators, next line, and the line and paragraph separators.
   */
  predicate IsBreak(c: char) {
    c in {'\n', '\r', '\U{000B}', '\U{000C}', '\U{001C}', '\U{001D}', '\U{001E}', '\U{0085}', '\U{2028}', '\U{2029}'}
  }

  /** The break characters of a text, in order. */
  function Breaks(text: string): (r: seq<char>)
    ensures |r| <= |text|
  {
    if text == [] then [] else (if IsBreak(text[0]) then [text[0]] else []) + Breaks(text[1..])
  }

  /** Lines joined again, each but the last followed by its break. */
  function JoinWith(lines: seq<string>, breaks: seq<char>): string
    requires |lines| == |breaks| + 1
    decreases |breaks|
  {
    if breaks == [] then lines[0] else lines[0] + [breaks[0]] + JoinWith(lines[1..], breaks[1..])
  }

  /**
   * The text split at every line break; the text after the last break is the
   * final line. There is one line more than there are breaks, no line holds a
   * break, and joining the lines with the breaks gives back the text.
   */
  function Lines(text: string): (r: seq<string>)
    ensures |r| == |Breaks(text)| + 1
    ensures forall i, j :: 0 <= i < |r| && 0 <= j < |r[i]| ==> !IsBreak(r[i][j])
    ensures JoinWith(r, Breaks(text)) == text
    ensures (forall j :: 0 <= j < |text| ==> !IsBreak(text[j])) ==> r == [text]
  {
    if text == [] then [""]
    else if IsBreak(text[0]) then
      var tail := Lines(text[1..]);
      assert ([""] + tail)[1..] == tail;
      assert [text[0]] + text[1..] == text;
      [""] + tail
    else
      var tail := Lines(text[1..]);
      assert Breaks(text) == [] + Breaks(text[1..]) == Breaks(text[1..]);
      JoinWithFirst(text[0], tail, Breaks(text[1..]));
      assert [text[0]] + text[1..] == text;
      [[text[0]] + tail[0]] + tail[1..]
  }

  /** Prefixing the first line with a character prefixes the joined text with it. */
  lemma JoinWithFirst(c: char, lines: seq<string>, breaks: seq<char>)
    requires |lines| == |breaks| + 1
    ensures JoinWith([[c] + lines[0]] + lines[1..], breaks) == [c] + JoinWith(lines, breaks)
  {
    var moved := [[c] + lines[0]] + lines[1..];
    assert moved[0] == [c] + lines[0] && moved[1..] == lines[1..];
    if breaks != [] {
      assert [c] + lines[0] + [breaks[0]] + JoinWith(lines[1..], breaks[1..])
          == [c] + (lines[0] + [breaks[0]] + JoinWith(lines[1..], breaks[1..]));
    }
  }

  /** A text without line breaks followed by a break is the first line. */
  lemma {:induction false} LinesAfterLine(x: string, b: char, y: string)
    requires forall j :: 0 <= j < |x| ==> !IsBreak(x[j])
    requires IsBreak(b)
    ensures Lines(x + [b] + y) == [x] + Lines(y)
  {
    if x == [] {
      assert x + [b] + y == [b] + y;
    } else {
      assert (x + [b] + y)[1..] == x[1..] + [b] + y;
      LinesAfterLine(x[1..], b, y);
      assert [x[0]] + x[1..] == x;
    }
  }

  /** The last line is empty exactly when the text is empty or ends with a break. */
  lemma {:induction false} LastLineEmpty(text: string)
    ensures var l := Lines(text);
            l[|l| - 1] == "" <==> text == [] || IsBreak(text[|text| - 1])
  {
    if text != [] {
      var tail := Lines(text[1..]);
      LastLineEmpty(text[1..]);
      if text[1..] != [] {
        assert text[|text| - 1] == text[1..][|text[1..]| - 1];
      }
      if !IsBreak(text[0]) && |tail| == 1 {
        assert |Breaks(text[1..])| == 0;
        assert Lines(text)[|Lines(text)| - 1] == [text[0]] + tail[0];
      }
    }
  }

  /**
   * `aiter_lines`: the lines as `str.splitlines` gives them, with no empty
   * line after a final break and none at all for an empty body.
   */
  function SplitLines(text: string): (r: seq<string>)
    ensures text == [] ==> r == []
    ensures text != [] && !IsBreak(text[|text| - 1]) ==> r == Lines(text)
    ensures text != [] && IsBreak(text[|text| - 1]) ==> r == Lines(text)[..|Lines(text)| - 1]
    ensures forall i, j :: 0 <= i < |r| && 0 <= j < |r[i]| ==> !IsBreak(r[i][j])
  {
    var l := Lines(text);
    LastLineEmpty(text);
    if l[|l| - 1] == "" then l[..|l| - 1] else l
  }

  /** The `data:` payload of one stripped line, if it carries one. */
  function DataPayload(line: string): Option<string> {
    var s := Strip(line);
    if StartsWith(s, "data:") then Some(Strip(s[5..])) else None
  }

  /** What one line contributes: the parsed payload of a `data:` line, nothing otherwise. */
  function LineEvents(line: string, loads: string -> Parsed): (r: seq<Value>)
    ensures |r| <= 1
    ensures r == [] <==> DataPayload(line).None? || loads(DataPayload(line).value).Malformed?
    ensures r != [] ==> loads(DataPayload(line).value) == Parsed(r[0])
  {
    match DataPayload(line)
    case None => []
    case Some(payload) =>
      match loads(payload)
      case Malformed => []
      case Parsed(v) => [v]
  }

  /**
   * The loop of `stream`: lines are stripped, only `data:` lines count, their
   * payload is stripped and parsed, and payloads that do not parse are skipped.
   */
  function DecodeSse(lines: seq<string>, loads: string -> Parsed): (r: seq<Value>)
    ensures |r| <= |lines|
  {
    if lines == [] then []
    else
      LineEvents(lines[0], loads) + DecodeSse(lines[1..], loads)
  }

  /** When every line carries exactly one event, the decoder yields the
      events line by line, in order. */
  lemma {:induction false} DecodeSseOnePerLine(lines: seq<string>, loads: string -> Parsed)
    requires forall i :: 0 <= i < |lines| ==> |LineEvents(lines[i], loads)| == 1
    ensures |DecodeSse(lines, loads)| == |lines|
    ensures forall i :: 0 <= i < |lines| ==> [DecodeSse(lines, loads)[i]] == LineEvents(lines[i], loads)
  {
    if lines != [] {
      var tail := lines[1..];
      assert forall i :: 0 <= i < |tail| ==> tail[i] == lines[i + 1];
      DecodeSseOnePerLine(tail, loads);
      var head := LineEvents(lines[0], loads);
      var rest := DecodeSse(tail, loads);
      assert DecodeSse(lines, loads) == head + rest;
      forall i | 0 <= i < |lines|
        ensures [DecodeSse(lines, loads)[i]] == LineEvents(lines[i], loads)
      {
        if i > 0 {
          assert DecodeSse(lines, loads)[i] == rest[i - 1];
          assert [rest[i - 1]] == LineEvents(tail[i - 1], loads);
        }
      }
    }
  }

  /** The first line is decoded on its own, before the rest. */
  lemma DecodeSseCons(line: string, rest: seq<string>, loads: string -> Parsed)
    ensures DecodeSse([line] + rest, loads) == LineEvents(line, loads) + DecodeSse(rest, loads)
  {
    assert ([line] + rest)[0] == line && ([line] + rest)[1..] == rest;
  }

  /** Decoding is line by line: it distributes over concatenation. */
  lemma {:induction false} DecodeSseAppend(a: seq<string>, b: seq<string>, loads: string -> Parsed)
    ensures DecodeSse(a + b, loads) == DecodeSse(a, loads) + DecodeSse(b, loads)
  {
    if a != [] {
      assert (a + b)[1..] == a[1..] + b;
      assert (a + b)[0] == a[0];
      DecodeSseAppend(a[1..], b, loads);
      var h := LineEvents(a[0], loads);
      assert h + (DecodeSse(a[1..], loads) + DecodeSse(b, loads)) == (h + DecodeSse(a[1..], loads)) + DecodeSse(b, loads);
    } else {
      assert a + b == b;
    }
  }

  /** Every line that is not a parseable `data:` line is skipped. */
  lemma {:induction false} DecodeSkipsNonData(lines: seq<string>, loads: string -> Parsed)
    requires forall i :: 0 <= i < |lines| ==> DataPayload(lines[i]).None?
    ensures DecodeSse(lines, loads) == []
  {
    if lines != [] {
      DecodeSkipsNonData(lines[1..], loads);
    }
  }

  /** Decoding what `aiter_lines` yields gives the same events as decoding every line, trailing empty one included. */
  lemma DecodeSplitLines(text: string, loads: string -> Parsed)
    ensures DecodeSse(SplitLines(text), loads) == DecodeSse(Lines(text), loads)
  {
    var l := Lines(text);
    if l[|l| - 1] == "" {
      assert l == l[..|l| - 1] + [""];
      DecodeSseAppend(l[..|l| - 1], [""], loads);
      assert DataPayload("") == None;
      assert DecodeSse([""], loads) == LineEvents("", loads) + DecodeSse([], loads);
    }
  }

  /** `strip` removes a single leading space before an already stripped text. */
  lemma StripSpaceThen(d: string)
    requires Stripped(d)
    ensures Strip(" " + d) == d
  {
    assert (" " + d)[1..] == d;
    assert TrimStart(" " + d) == TrimStart(d);
    StripOfStripped(d);
  }

  /** A frame line `data: <d>` decodes to the payload `d` when `d` is stripped and non-empty. */
  lemma DataLinePayload(d: string)
    requires d != [] && Stripped(d)
    ensures DataPayload("data: " + d) == Some(d)
  {
    var prefix := "data: ";
    var line := prefix + d;
    assert line[..5] == "data:" by {
      assert line[..5] == prefix[..5];
    }
    assert line[5..] == " " + d by {
      assert line[5..] == prefix[5..] + d;
    }
    assert Stripped(line) by {
      assert line[0] == 'd';
      assert line[|line| - 1] == d[|d| - 1];
    }
    StripOfStripped(line);
    StripSpaceThen(d);
  }
}

=== FILE: dispatcher.dfy ===
/**
 * The method registry: a name-to-handler map with ordered introspection and
 * a distinct "method not found" failure. Handlers are opaque values of type
 * `H`; the caller of `Dispatch` says how one is invoked.
 */
module Dispatcher {
  import opened Wrappers
  import opened Json
  import JsonRpc
  import opened SeqUtil

  /** The exceptions that cross the dispatch boundary. */
  datatype Exception =
    | MethodNotFoundError(methodName: string)
    | OtherError(text: string)
  {
    /** The JSON-RPC code a `MethodNotFoundError` carries. */
    function Code(): int
      requires MethodNotFoundError?
    {
      JsonRpc.MethodNotFoundCode
    }

    /** `str(exc)` */
    function Text(): string {
      match this
      case MethodNotFoundError(name) => "Method not found: " + name
      case OtherError(text) => text
    }
  }

  /**
   * The handler table. `names` is the key order of the Python dict: the order
   * in which names were first registered.
   */
  datatype Registry<H> = Registry(handlers: map<string, H>, names: seq<string>)

  /** `names` lists every registered name exactly once. */
  ghost predicate Valid<H>(reg: Registry<H>) {
    && Distinct(reg.names)
    && (forall n :: n in reg.handlers <==> n in reg.names)
  }

  /** `is_registered` */
  predicate IsRegistered<H>(reg: Registry<H>, name: string) {
    name in reg.handlers
  }

  /** `methods` */
  function Methods<H>(reg: Registry<H>): seq<string> {
    reg.names
  }

  /** `_handlers.get(name)` */
  function Lookup<H>(reg: Registry<H>, name: string): Option<H> {
    if name in reg.handlers then Some(reg.handlers[name]) else None
  }

  /** `Registry()`: nothing is registered. */
  function NewRegistry<H>(): (reg: Registry<H>)
    ensures Valid(reg)
    ensures Methods(reg) == []
    ensures forall n :: !IsRegistered(reg, n)
  {
    Registry(map[], [])
  }

  /**
   * `@registry.handler(name)` applied to `fn`. The name becomes registered with
   * `fn`; an existing name is overwritten in place, a new one goes last; every
   * other name keeps its handler and its registration status.
   */
  function Register<H>(reg: Registry<H>, name: string, fn: H): (r: Registry<H>)
    requires Valid(reg)
    ensures Valid(r)
    ensures IsRegistered(r, name) && Lookup(r, name) == Some(fn)
    ensures forall n :: n != name ==> Lookup(r, n) == Lookup(reg, n)
    ensures forall n :: IsRegistered(r, n) <==> IsRegistered(reg, n) || n == name
    ensures IsRegistered(reg, name) ==> Methods(r) == Methods(reg)
    ensures !IsRegistered(reg, name) ==> Methods(r) == Methods(reg) + [name]
  {
    Registry(reg.handlers[name := fn], if name in reg.handlers then reg.names else reg.names + [name])
  }

  /**
   * `dispatch(name, params)`: an unregistered name fails with a
   * `MethodNotFoundError` carrying the name; otherwise the registered handler
   * is invoked with `params` unchanged and its outcome is returned as is.
   */
  function Dispatch<H, R>(reg: Registry<H>, name: string, params: Object, invoke: (H, Object) -> R)
    : (r: Result<R, Exception>)
    ensures r.Failure? <==> !IsRegistered(reg, name)
    ensures r.Failure? ==> r.error == MethodNotFoundError(name) && r.error.Code() == -32601
    ensures r.Success? ==> Lookup(reg, name) == Some(reg.handlers[name]) && r.value == invoke(reg.handlers[name], params)
  {
    match Lookup(reg, name)
    case None => Failure(MethodNotFoundError(name))
    case Some(fn) => Success(invoke(fn, params))
  }

  // ---------------------------------------------------------------------
  // A history of registrations, and what the registry looks like after it.

  /** The registry after applying `regs` to `reg`, in order. */
  function RegisterAll<H>(reg: Registry<H>, regs: seq<(string, H)>): (r: Registry<H>)
    requires Valid(reg)
    ensures Valid(r)
  {
    if regs == [] then reg
    else Register(RegisterAll(reg, regs[..|regs| - 1]), regs[|regs| - 1].0, regs[|regs| - 1].1)
  }

  function Names<H>(regs: seq<(string, H)>): (r: seq<string>)
    ensures |r| == |regs|
    ensures forall i :: 0 <= i < |regs| ==> r[i] == regs[i].0
  {
    if regs == [] then [] else Names(regs[..|regs| - 1]) + [regs[|regs| - 1].0]
  }

  /** Each name at its first position, later repeats dropped. */
  function FirstOccurrences(s: seq<string>): seq<string>
    decreases |s|
  {
    if s == [] then [] else [s[0]] + FirstOccurrences(Without(s[1..], s[0]))
  }

  /** The handler last registered under `name` in `regs`, if any. */
  function LastRegistered<H>(regs: seq<(string, H)>, name: string): Option<H> {
    if regs == [] then None
    else if regs[|regs| - 1].0 == name then Some(regs[|regs| - 1].1)
    else LastRegistered(regs[..|regs| - 1], name)
  }

  lemma {:induction false} FirstOccurrencesSnoc(s: seq<string>, x: string)
    ensures FirstOccurrences(s + [x]) == if x in s then FirstOccurrences(s) else FirstOccurrences(s) + [x]
    decreases |s|
  {
    if s == [] {
      assert [] + [x] == [x];
    } else {
      var a := s[0];
      var t := s[1..];
      assert (s + [x])[0] == a;
      assert (s + [x])[1..] == t + [x];
      WithoutAppend(t, [x], a);
      assert Without([x], a) == (if x == a then [] else [x]);
      var w := Without(t, a);
      if x != a {
        FirstOccurrencesSnoc(w, x);
        assert (x in w) <==> (x in s);
      } else {
        assert w + [] == w;
      }
    }
  }

  /**
   * After any history of registrations starting from an empty registry,
   * `methods` lists the names in first-registration order without repeats,
   * the registered names are exactly those in the history, and each name's
   * handler is the one registered last.
   */
  lemma {:induction false} RegisterAllOrder<H>(regs: seq<(string, H)>)
    ensures Methods(RegisterAll(NewRegistry<H>(), regs)) == FirstOccurrences(Names(regs))
    ensures forall n :: IsRegistered(RegisterAll(NewRegistry<H>(), regs), n) <==> n in Names(regs)
    ensures forall n :: Lookup(RegisterAll(NewRegistry<H>(), regs), n) == LastRegistered(regs, n)
  {
    if regs != [] {
      var init := regs[..|regs| - 1];
      var (name, fn) := regs[|regs| - 1];
      RegisterAllOrder(init);
      assert Names(regs) == Names(init) + [name];
      FirstOccurrencesSnoc(Names(init), name);
    }
  }
}

=== FILE: gateway.dfy ===
/**
 * Both compartments together: what the engine sends is what the
 * application validates, what the application answers is what the engine
 * interprets, and the event stream the application frames is the one the
 * engine decodes.
 */
module Gateway {
  import opened Wrappers
  import opened Json
  import opened PyText
  import opened JsonRpc
  import opened Dispatcher
  import Handlers
  import Streaming
  import Server
  import Client

  /** The application accepts every request the engine builds, with the engine's id. */
  lemma RequestReachesServer(methodName: string, params: Option<Object>, clientId: Uuid, serverFresh: Uuid)
    requires methodName != ""
    ensures var req := Client.BuildRequest(methodName, params, clientId);
            FromDict(Obj(RequestToDict(req)), serverFresh) == Success(req)
  {
    FromDictRoundTrip(Client.BuildRequest(methodName, params, clientId), serverFresh);
  }

  /**
   * The engine reads back every response the application serialises: the
   * result of a success, or the code, message and data of an error.
   */
  lemma ResponseReachesClient(r: Response)
    ensures Client.Interpret(Parsed(Obj(ResponseToDict(r)))) ==
              if r.error.Some? then Client.RpcFailure(Num(r.error.value.code), Str(r.error.value.message), r.error.value.data)
              else Client.Returned(r.result)
  {
    var d := ResponseToDict(r);
    if r.error.Some? {
      var e := ErrorToDict(r.error.value);
      assert d["error"] == Obj(e);
      assert Client.ErrorShaped(Obj(e));
    } else {
      assert "error" !in d;
    }
  }

  /** The body of a unary reply as the engine receives it. */
  function UnaryBody(reply: Server.Reply): Parsed
    requires reply.Unary?
  {
    Parsed(Obj(ResponseToDict(reply.response)))
  }

  /**
   * A unary call through the application: the request is answered under the
   * engine's id; an unknown method comes back as a method-not-found error;
   * a registered one as the handler's result or as an error of its own.
   */
  lemma UnaryCallThroughEndpoint(methodName: string, params: Option<Object>, clientId: Uuid,
                                 reqFresh: Uuid, streamFresh: Uuid, mgr: Streaming.Manager)
    requires Streaming.Valid(mgr)
    requires methodName != "" && methodName !in Handlers.StreamingMethods
    ensures var req := Client.BuildRequest(methodName, params, clientId);
            var reg := Handlers.AppRegistry();
            var (reply, mgr') := Server.RpcEndpoint(Parsed(Obj(RequestToDict(req))), reqFresh, streamFresh, reg, mgr);
            && reply.Unary?
            && reply.response.id == clientId
            && (!IsRegistered(reg, methodName) ==>
                  Client.Interpret(UnaryBody(reply)) ==
                    Client.RpcFailure(Num(MethodNotFoundCode), Str("Method not found: " + methodName), Null))
            && (IsRegistered(reg, methodName) ==>
                  var (outcome, after) := Handlers.Invoke(reg.handlers[methodName], req.params, mgr);
                  && mgr' == after
                  && (outcome.Success? ==> Client.Interpret(UnaryBody(reply)) == Client.Returned(outcome.value))
                  && (outcome.Failure? ==> Client.Interpret(UnaryBody(reply)).RpcFailure?))
  {
    var req := Client.BuildRequest(methodName, params, clientId);
    RequestReachesServer(methodName, params, clientId, reqFresh);
    var reg := Handlers.AppRegistry();
    var (reply, mgr') := Server.RpcEndpoint(Parsed(Obj(RequestToDict(req))), reqFresh, streamFresh, reg, mgr);
    ResponseReachesClient(reply.response);
  }

  /**
   * `cancel_stream(id)` end to end: the engine learns whether the id named a
   * live stream with a running handler, and exactly then that stream's scope
   * is cancelled; otherwise the manager is unchanged.
   */
  lemma CancelThroughEndpoint(streamId: string, clientId: Uuid, reqFresh: Uuid, streamFresh: Uuid,
                              mgr: Streaming.Manager)
    requires Streaming.Valid(mgr)
    requires streamId != ""
    ensures var req := Client.CancelRequest(streamId, clientId);
            var (mgr', ok) := Streaming.CancelStream(mgr, streamId);
            var answer := Obj(map["cancelled" := Bool(ok), "stream_id" := Str(streamId)]);
            && Server.RpcEndpoint(Parsed(Obj(RequestToDict(req))), reqFresh, streamFresh, Handlers.AppRegistry(), mgr)
                 == (Server.Unary(SuccessResponse(clientId, answer)), mgr')
            && Client.Interpret(UnaryBody(Server.Unary(SuccessResponse(clientId, answer)))) == Client.Returned(answer)
            && (ok <==> Streaming.IsLive(mgr, streamId) && Streaming.EntryOf(mgr, streamId).value.scope.Some?)
            && (ok ==> Streaming.Cancelled(mgr'.runs[mgr.table[streamId]]))
            && (!ok ==> mgr' == mgr)
  {
    CancelReply(streamId, clientId, reqFresh, streamFresh, mgr);
    CancelAnswer(streamId, clientId, mgr);
  }

  /** What the engine reads from the reply to a cancel request, and what the manager became. */
  lemma CancelAnswer(streamId: string, clientId: Uuid, mgr: Streaming.Manager)
    requires Streaming.Valid(mgr)
    ensures var (mgr', ok) := Streaming.CancelStream(mgr, streamId);
            var answer := Obj(map["cancelled" := Bool(ok), "stream_id" := Str(streamId)]);
            && Client.Interpret(UnaryBody(Server.Unary(SuccessResponse(clientId, answer)))) == Client.Returned(answer)
            && (ok <==> Streaming.IsLive(mgr, streamId) && Streaming.EntryOf(mgr, streamId).value.scope.Some?)
            && (ok ==> Streaming.Cancelled(mgr'.runs[mgr.table[streamId]]))
            && (!ok ==> mgr' == mgr)
  {
    var (mgr', ok) := Streaming.CancelStream(mgr, streamId);
    var answer := Obj(map["cancelled" := Bool(ok), "stream_id" := Str(streamId)]);
    ResponseReachesClient(SuccessResponse(clientId, answer));
  }

  /** The application's reply to the engine's cancel request. */
  lemma CancelReply(streamId: string, clientId: Uuid, reqFresh: Uuid, streamFresh: Uuid, mgr: Streaming.Manager)
    requires Streaming.Valid(mgr)
    requires streamId != ""
    ensures var req := Client.CancelRequest(streamId, clientId);
            var (mgr', ok) := Streaming.CancelStream(mgr, streamId);
            Server.RpcEndpoint(Parsed(Obj(RequestToDict(req))), reqFresh, streamFresh, Handlers.AppRegistry(), mgr)
              == (Server.Unary(SuccessResponse(clientId, Obj(map["cancelled" := Bool(ok), "stream_id" := Str(streamId)]))), mgr')
  {
    var params := map["stream_id" := Str(streamId)];
    var req := Client.CancelRequest(streamId, clientId);
    assert Handlers.CancelMethod == Client.CancelMethod;
    RequestReachesServer(Client.CancelMethod, Some(params), clientId, reqFresh);
    assert "engine.stream.cancel" !in Handlers.StreamingMethods;
    assert Get(params, "stream_id", Null) == Str(streamId);
  }

  // ---------------------------------------------------------------------
  // The event stream on the wire.

  predicate NoBreaks(s: string) {
    forall j :: 0 <= j < |s| ==> !Client.IsBreak(s[j])
  }

  /**
   * What is assumed of `json.dumps` / `json.loads` for a value: the text is
   * non-empty, one line, without surrounding whitespace, and parses back to
   * the value.
   */
  predicate Encodes(dumps: Value -> string, loads: string -> Parsed, v: Value) {
    dumps(v) != "" && NoBreaks(dumps(v)) && Stripped(dumps(v)) && loads(dumps(v)) == Parsed(v)
  }

  lemma DataLineHasNoBreaks(d: string)
    requires NoBreaks(d)
    ensures NoBreaks("data: " + d)
  {
    var line := "data: " + d;
    forall j | 0 <= j < |line| ensures !Client.IsBreak(line[j]) {
      if j >= 6 {
        assert line[j] == d[j - 6];
      }
    }
  }

  /** A frame is a `data:` line followed by a blank line. */
  lemma FrameLines(dumps: Value -> string, v: Value, rest: string)
    requires NoBreaks(dumps(v))
    ensures Client.Lines(Server.FrameText(dumps, v) + rest) == ["data: " + dumps(v)] + ([""] + Client.Lines(rest))
  {
    var x := "data: " + dumps(v);
    assert Server.FrameText(dumps, v) + rest == x + ['\n'] + (['\n'] + rest);
    DataLineHasNoBreaks(dumps(v));
    Client.LinesAfterLine(x, '\n', ['\n'] + rest);
    assert (['\n'] + rest)[1..] == rest;
  }

  /** A `data:` line carrying a stripped, non-empty text that parses yields its value. */
  lemma DataLineEvent(d: string, loads: string -> Parsed, v: Value)
    requires d != [] && Stripped(d) && loads(d) == Parsed(v)
    ensures Client.LineEvents("data: " + d, loads) == [v]
  {
    Client.DataLinePayload(d);
  }

  /** A line yielding one value, then the blank line after it, decode to that value. */
  lemma DataLineDecodes(first: string, loads: string -> Parsed, v: Value, rest: seq<string>)
    requires Client.LineEvents(first, loads) == [v]
    ensures Client.DecodeSse([first] + ([""] + rest), loads) == [v] + Client.DecodeSse(rest, loads)
  {
    Client.DecodeSseCons(first, [""] + rest, loads);
    BlankLineSkipped(rest, loads);
  }

  /** The blank line that ends a frame contributes nothing. */
  lemma BlankLineSkipped(rest: seq<string>, loads: string -> Parsed)
    ensures Client.DecodeSse([""] + rest, loads) == Client.DecodeSse(rest, loads)
  {
    Client.DecodeSseCons("", rest, loads);
    assert Client.LineEvents("", loads) == [];
  }

  /** One frame decodes to its value, whatever follows it. */
  lemma FrameDecodes(dumps: Value -> string, loads: string -> Parsed, v: Value, rest: string)
    requires Encodes(dumps, loads, v)
    ensures Client.DecodeSse(Client.Lines(Server.FrameText(dumps, v) + rest), loads)
            == [v] + Client.DecodeSse(Client.Lines(rest), loads)
  {
    FrameLines(dumps, v, rest);
    DataLineEvent(dumps(v), loads, v);
    DataLineDecodes("data: " + dumps(v), loads, v, Client.Lines(rest));
  }

  /**
   * The engine's decoder gives back exactly the values the application's
   * generator framed, in order, whenever the JSON codec round-trips them.
   */
  lemma {:induction false} SseRoundTrip(dumps: Value -> string, loads: string -> Parsed, frames: seq<Value>)
    requires forall i :: 0 <= i < |frames| ==> Encodes(dumps, loads, frames[i])
    ensures Client.DecodeSse(Client.Lines(Server.SseBody(dumps, frames)), loads) == frames
  {
    if frames == [] {
      assert Client.Lines("") == [""];
      assert Client.DataPayload("") == None;
    } else {
      SseRoundTrip(dumps, loads, frames[1..]);
      FrameDecodes(dumps, loads, frames[0], Server.SseBody(dumps, frames[1..]));
      assert [frames[0]] + frames[1..] == frames;
    }
  }

  /**
   * A whole stream end to end: once the application's feed for a stream has
   * been drained under any schedule of the handler, consumer and
   * cancellation, the engine decodes the start frame, every event the handler
   * emitted before cancellation in order, and the end frame.
   */
  lemma StreamThroughGateway(dumps: Value -> string, loads: string -> Parsed, streamId: string,
                             bufferSize: nat, acts: seq<Streaming.Action>)
    requires Streaming.Replay(Streaming.NewRun(streamId, bufferSize), acts).Some?
    requires Streaming.Replay(Streaming.NewRun(streamId, bufferSize), acts).value.phase == Streaming.Drained
    requires forall v :: Encodes(dumps, loads, v)
    ensures var delivered := Streaming.Replay(Streaming.NewRun(streamId, bufferSize), acts).value.delivered;
            var frames := Server.SseFrames("generate", streamId, delivered);
            Client.DecodeSse(Client.SplitLines(Server.SseBody(dumps, frames)), loads)
              == [Server.StartFrame(streamId)]
                 + Server.EventFrames(Streaming.EmittedBeforeCancel(acts, false))
                 + [Server.EndFrame(streamId)]
  {
    Streaming.StreamDelivery(streamId, bufferSize, acts);
    var delivered := Streaming.Replay(Streaming.NewRun(streamId, bufferSize), acts).value.delivered;
    var frames := Server.SseFrames("generate", streamId, delivered);
    SseRoundTrip(dumps, loads, frames);
    Client.DecodeSplitLines(Server.SseBody(dumps, frames), loads);
  }

  /**
   * `generate` end to end, for any params: with the consumer taking each
   * event as soon as it is emitted and no cancellation, the run drains and
   * the engine decodes the start frame, every event `generate_stream` emits
   * (for valid params, the token events and then `done`), and the end frame.
   */
  lemma GenerateThroughGateway(dumps: Value -> string, loads: string -> Parsed, params: Object,
                               streamId: string, bufferSize: nat)
    requires forall v :: Encodes(dumps, loads, v)
    ensures var events := Handlers.GenerateStream(params, None).emitted;
            var last := Streaming.Replay(Streaming.NewRun(streamId, bufferSize), Streaming.ServeAll(events));
            && last.Some? && last.value.phase == Streaming.Drained
            && Client.DecodeSse(Client.SplitLines(Server.SseBody(dumps, Server.SseFrames("generate", streamId, last.value.delivered))), loads)
                 == [Server.StartFrame(streamId)] + Server.EventFrames(events) + [Server.EndFrame(streamId)]
  {
    var events := Handlers.GenerateStream(params, None).emitted;
    var acts := Streaming.ServeAll(events);
    Streaming.ServeAllDelivers(streamId, bufferSize, events);
    Streaming.StreamDelivery(streamId, bufferSize, acts);
    StreamThroughGateway(dumps, loads, streamId, bufferSize, acts);
  }
}

=== FILE: handlers.dfy ===
/**
 * The example application: the unary handlers `echo`, `add`, the `generate`
 * placeholder and the `engine.stream.cancel` control method, the streaming
 * handler `generate_stream`, and the tables that say which method streams.
 */
module Handlers {
  import opened Wrappers
  import opened Json
  import opened PyText
  import opened Dispatcher
  import Streaming

  /** The unary handlers the application registers. */
  datatype Handler = EchoHandler | AddHandler | GenerateHandler | CancelHandler

  /** The name under which the control method is registered. */
  const CancelMethod: string := "engine.stream.cancel"

  /** `echo`: the params, unchanged. */
  function Echo(params: Object): Value {
    Obj(params)
  }

  /** Python's `a + b` on JSON values: integers (booleans count as 0 and 1), string or list concatenation, else a `TypeError`. */
  function PyAdd(a: Value, b: Value): (r: Result<Value, string>)
    ensures r.Success? <==> (IsIntLike(a) && IsIntLike(b)) || (a.Str? && b.Str?) || (a.Arr? && b.Arr?)
    ensures IsIntLike(a) && IsIntLike(b) ==> r == Success(Num(IntOf(a) + IntOf(b)))
    ensures a.Str? && b.Str? ==> r == Success(Str(a.s + b.s))
    ensures a.Arr? && b.Arr? ==> r == Success(Arr(a.items + b.items))
  {
    if IsIntLike(a) && IsIntLike(b) then Success(Num(IntOf(a) + IntOf(b)))
    else if a.Str? then
      if b.Str? then Success(Str(a.s + b.s))
      else Failure("can only concatenate str (not \"" + TypeName(b) + "\") to str")
    else if a.Arr? then
      if b.Arr? then Success(Arr(a.items + b.items))
      else Failure("can only concatenate list (not \"" + TypeName(b) + "\") to list")
    else Failure("unsupported operand type(s) for +: '" + TypeName(a) + "' and '" + TypeName(b) + "'")
  }

  /**
   * `add`: `{"result": a + b}`, a missing operand counting as 0. Two integers
   * (booleans included) are summed, two strings or two lists are
   * concatenated; any other pair raises a `TypeError`.
   */
  function Add(params: Object): (r: Result<Value, Exception>)
    ensures var a := Get(params, "a", Num(0));
            var b := Get(params, "b", Num(0));
            r.Success? <==> (IsIntLike(a) && IsIntLike(b)) || (a.Str? && b.Str?) || (a.Arr? && b.Arr?)
    ensures var a := Get(params, "a", Num(0));
            var b := Get(params, "b", Num(0));
            IsIntLike(a) && IsIntLike(b) ==> r == Success(Obj(map["result" := Num(IntOf(a) + IntOf(b))]))
    ensures var a := Get(params, "a", Num(0));
            var b := Get(params, "b", Num(0));
            a.Str? && b.Str? ==> r == Success(Obj(map["result" := Str(a.s + b.s)]))
    ensures var a := Get(params, "a", Num(0));
            var b := Get(params, "b", Num(0));
            a.Arr? && b.Arr? ==> r == Success(Obj(map["result" := Arr(a.items + b.items)]))
    ensures r.Success? ==> r.value.Obj? && r.value.fields.Keys == {"result"}
    ensures r.Failure? ==> r.error.OtherError?
  {
    AddValues(Get(params, "a", Num(0)), Get(params, "b", Num(0)))
  }

  /** `add` once its operands have been read. */
  function AddValues(a: Value, b: Value): (r: Result<Value, Exception>)
    ensures r.Success? <==> (IsIntLike(a) && IsIntLike(b)) || (a.Str? && b.Str?) || (a.Arr? && b.Arr?)
    ensures IsIntLike(a) && IsIntLike(b) ==> r == Success(Obj(map["result" := Num(IntOf(a) + IntOf(b))]))
    ensures a.Str? && b.Str? ==> r == Success(Obj(map["result" := Str(a.s + b.s)]))
    ensures a.Arr? && b.Arr? ==> r == Success(Obj(map["result" := Arr(a.items + b.items)]))
    ensures r.Success? ==> r.value.Obj? && r.value.fields.Keys == {"result"}
    ensures r.Failure? ==> r.error.OtherError?
  {
    var sum := PyAdd(a, b);
    if sum.Success? then Success(Obj(map["result" := sum.value])) else Failure(OtherError(sum.error))
  }

  /** `generate` called as a unary method: a fixed reminder to use the stream. */
  function GeneratePlaceholder(params: Object): Value {
    Str("use streaming endpoint")
  }

  /**
   * The `engine.stream.cancel` control handler. A missing or falsy
   * `stream_id` is answered without touching the manager; a string id is
   * passed to `cancel_stream`; any other truthy id cannot match a key (a list
   * or dict is not even hashable).
   */
  function CancelControl(params: Object, mgr: Streaming.Manager): (r: (Result<Value, Exception>, Streaming.Manager))
    requires Streaming.Valid(mgr)
    ensures Streaming.Valid(r.1)
    ensures !Truthy(Get(params, "stream_id", Null)) ==>
              r == (Success(Obj(map["cancelled" := Bool(false), "error" := Str("missing stream_id")])), mgr)
    ensures forall s :: Get(params, "stream_id", Null) == Str(s) && s != "" ==>
              var (mgr', ok) := Streaming.CancelStream(mgr, s);
              r == (Success(Obj(map["cancelled" := Bool(ok), "stream_id" := Str(s)])), mgr')
    ensures !Get(params, "stream_id", Null).Str? ==> r.1 == mgr
    ensures var sid := Get(params, "stream_id", Null);
            Truthy(sid) && !sid.Str? ==>
              r.0 == if sid.Arr? || sid.Obj? then Failure(OtherError("unhashable type: '" + TypeName(sid) + "'"))
                     else Success(Obj(map["cancelled" := Bool(false), "stream_id" := sid]))
  {
    var sid := Get(params, "stream_id", Null);
    if !Truthy(sid) then
      (Success(Obj(map["cancelled" := Bool(false), "error" := Str("missing stream_id")])), mgr)
    else if sid.Str? then
      var (mgr', ok) := Streaming.CancelStream(mgr, sid.s);
      (Success(Obj(map["cancelled" := Bool(ok), "stream_id" := sid])), mgr')
    else if sid.Arr? || sid.Obj? then
      (Failure(OtherError("unhashable type: '" + TypeName(sid) + "'")), mgr)
    else
      (Success(Obj(map["cancelled" := Bool(false), "stream_id" := sid])), mgr)
  }

  /** Run a registered unary handler; only the control method touches the stream manager. */
  function Invoke(h: Handler, params: Object, mgr: Streaming.Manager): (r: (Result<Value, Exception>, Streaming.Manager))
    requires Streaming.Valid(mgr)
    ensures Streaming.Valid(r.1)
    ensures h != CancelHandler ==> r.1 == mgr
    ensures h == EchoHandler ==> r.0 == Success(Obj(params))
    ensures h == AddHandler ==> r.0 == Add(params)
    ensures h == GenerateHandler ==> r.0 == Success(Str("use streaming endpoint"))
    ensures h == CancelHandler ==> r == CancelControl(params, mgr)
  {
    match h
    case EchoHandler => (Success(Echo(params)), mgr)
    case AddHandler => (Add(params), mgr)
    case GenerateHandler => (Success(GeneratePlaceholder(params)), mgr)
    case CancelHandler => CancelControl(params, mgr)
  }

  /** The module-level `registry`, populated in declaration order. */
  function AppRegistry(): (reg: Registry<Handler>)
    ensures Valid(reg)
    ensures Methods(reg) == ["echo", "add", "generate", CancelMethod]
    ensures Lookup(reg, "echo") == Some(EchoHandler)
    ensures Lookup(reg, "add") == Some(AddHandler)
    ensures Lookup(reg, "generate") == Some(GenerateHandler)
    ensures Lookup(reg, CancelMethod) == Some(CancelHandler)
  {
    Registry(map["echo" := EchoHandler, "add" := AddHandler, "generate" := GenerateHandler, CancelMethod := CancelHandler],
             ["echo", "add", "generate", CancelMethod])
  }

  // ---------------------------------------------------------------------
  // Streaming.

  /** The methods served by the streaming path. */
  const StreamingMethods: set<string> := {"generate"}

  /** The streaming handlers there are. */
  datatype StreamHandler = GenerateStreamHandler

  /** `get_stream_handler` */
  function GetStreamHandler(name: string): Option<StreamHandler> {
    if name == "generate" then Some(GenerateStreamHandler) else None
  }

  /** Exactly the streaming methods have a stream handler. */
  lemma StreamHandlersMatchStreamingMethods(name: string)
    ensures GetStreamHandler(name).Some? <==> name in StreamingMethods
  {
  }

  /** A token event of `generate_stream`. */
  function TokenEvent(i: nat, prompt: Value): Streaming.Event {
    map["type" := Str("token"), "index" := Num(i), "token" := Str("tok_" + NatToString(i)), "prompt" := prompt]
  }

  /** The closing event of `generate_stream`. */
  function DoneEvent(total: Value): Streaming.Event {
    map["type" := Str("done"), "total" := total]
  }

  /**
   * What one run of a streaming handler did: the events it got into the feed
   * (emits that were not no-ops), and whether it ended by raising.
   */
  datatype StreamOutcome = StreamOutcome(emitted: seq<Streaming.Event>, raised: bool)

  /**
   * The token loop of `generate_stream` from iteration `i` on. `cancelAt` is
   * the environment: `Some(k)` when cancellation is requested once `k` events
   * are in the feed, `None` when it never is. A cancelled handler stops at its
   * next check or suspension point; an invalid delay makes the first sleep raise.
   */
  function TokenLoop(i: nat, n: int, prompt: Value, delayOk: bool, cancelAt: Option<nat>): (r: StreamOutcome)
    ensures |r.emitted| <= if n > i then n - i else 0
    ensures forall j :: 0 <= j < |r.emitted| ==> r.emitted[j] == TokenEvent(i + j, prompt)
    ensures cancelAt.None? && delayOk ==> !r.raised && |r.emitted| == if n > i then n - i else 0
    ensures cancelAt.Some? ==> |r.emitted| <= if cancelAt.value > i then cancelAt.value - i else 0
    ensures cancelAt.Some? && delayOk ==>
              && !r.raised
              && |r.emitted| == (var stop := if cancelAt.value < n then cancelAt.value else n;
                                 if stop > i then stop - i else 0)
    ensures r.raised ==> !delayOk
    ensures !delayOk && n > i && (cancelAt.None? || cancelAt.value > i) ==>
              r == StreamOutcome([TokenEvent(i, prompt)], true)
    decreases if n > i then n - i else 0
  {
    if i >= n then StreamOutcome([], false)
    else if cancelAt.Some? && cancelAt.value <= i then StreamOutcome([], false)
    else if !delayOk then StreamOutcome([TokenEvent(i, prompt)], true)
    else
      var rest := TokenLoop(i + 1, n, prompt, delayOk, cancelAt);
      StreamOutcome([TokenEvent(i, prompt)] + rest.emitted, rest.raised)
  }

  /**
   * `generate_stream(params, ctx)`: `tokens` token events (default 5) carrying
   * their index, `tok_<index>` and the prompt, then a `done` event with the
   * total. A `tokens` that is not an integer makes `range` raise before
   * anything is emitted; once cancelled the handler emits nothing more, and
   * no `done` event at all.
   */
  function GenerateStream(params: Object, cancelAt: Option<nat>): (r: StreamOutcome)
    ensures !IsIntLike(Get(params, "tokens", Num(5))) ==> r == StreamOutcome([], true)
    ensures var tokens := Get(params, "tokens", Num(5));
            IsIntLike(tokens) && (ValidDelay(params) || TokenCount(tokens) == 0) &&
            (cancelAt.None? || cancelAt.value > TokenCount(tokens)) ==>
              Completed(r, tokens, Get(params, "prompt", Str("")))
    ensures var tokens := Get(params, "tokens", Num(5));
            cancelAt.Some? && cancelAt.value <= TokenCount(tokens) ==>
              && |r.emitted| <= cancelAt.value
              && (forall j :: 0 <= j < |r.emitted| ==> r.emitted[j] == TokenEvent(j, Get(params, "prompt", Str(""))))
    ensures var tokens := Get(params, "tokens", Num(5));
            cancelAt.Some? && cancelAt.value <= TokenCount(tokens) && IsIntLike(tokens) && ValidDelay(params) ==>
              !r.raised && |r.emitted| == cancelAt.value
    ensures var tokens := Get(params, "tokens", Num(5));
            IsIntLike(tokens) && !ValidDelay(params) && TokenCount(tokens) > 0 && (cancelAt.None? || cancelAt.value > 0) ==>
              r == StreamOutcome([TokenEvent(0, Get(params, "prompt", Str("")))], true)
  {
    GenerateFrom(Get(params, "tokens", Num(5)), Get(params, "prompt", Str("")), ValidDelay(params), cancelAt)
  }

  /** How many token events `range(tokens)` asks for: none for a negative or non-integer count. */
  function TokenCount(tokens: Value): nat {
    if IsIntLike(tokens) && IntOf(tokens) > 0 then IntOf(tokens) else 0
  }

  /** A run that went to the end: every token event in order, then `done` with the total, and no exception. */
  predicate Completed(r: StreamOutcome, tokens: Value, prompt: Value) {
    var n := TokenCount(tokens);
    && !r.raised
    && |r.emitted| == n + 1
    && (forall j :: 0 <= j < n ==> r.emitted[j] == TokenEvent(j, prompt))
    && r.emitted[n] == DoneEvent(tokens)
  }

  /** `generate_stream` once its parameters have been read. */
  function GenerateFrom(tokens: Value, prompt: Value, delayOk: bool, cancelAt: Option<nat>): (r: StreamOutcome)
    ensures !IsIntLike(tokens) ==> r == StreamOutcome([], true)
    ensures IsIntLike(tokens) && (delayOk || TokenCount(tokens) == 0) &&
            (cancelAt.None? || cancelAt.value > TokenCount(tokens)) ==>
              Completed(r, tokens, prompt)
    ensures cancelAt.Some? && cancelAt.value <= TokenCount(tokens) ==>
              && |r.emitted| <= cancelAt.value
              && (forall j :: 0 <= j < |r.emitted| ==> r.emitted[j] == TokenEvent(j, prompt))
    ensures cancelAt.Some? && cancelAt.value <= TokenCount(tokens) && IsIntLike(tokens) && delayOk ==>
              !r.raised && |r.emitted| == cancelAt.value
    ensures IsIntLike(tokens) && !delayOk && TokenCount(tokens) > 0 && (cancelAt.None? || cancelAt.value > 0) ==>
              r == StreamOutcome([TokenEvent(0, prompt)], true)
  {
    if !IsIntLike(tokens) then StreamOutcome([], true)
    else
      var n := IntOf(tokens);
      var loop := TokenLoop(0, n, prompt, delayOk, cancelAt);
      var count := if n > 0 then n else 0;
      if loop.raised || (cancelAt.Some? && cancelAt.value <= count) then loop
      else StreamOutcome(loop.emitted + [DoneEvent(tokens)], false)
  }

  /** `anyio.sleep(delay)` accepts the delay: absent (default 0.3) or a number. */
  predicate ValidDelay(params: Object) {
    "delay" !in params || IsIntLike(params["delay"])
  }

  /**
   * Cancellation only cuts the event sequence short: whenever it comes, the
   * handler has emitted a prefix of what it emits when never cancelled.
   */
  lemma CancelTruncates(params: Object, k: nat)
    ensures var cut := GenerateStream(params, Some(k)).emitted;
            var full := GenerateStream(params, None).emitted;
            |cut| <= |full| && cut == full[..|cut|]
  {
    GenerateFromPrefix(Get(params, "tokens", Num(5)), Get(params, "prompt", Str("")), ValidDelay(params), k);
  }

  lemma GenerateFromPrefix(tokens: Value, prompt: Value, delayOk: bool, k: nat)
    ensures var cut := GenerateFrom(tokens, prompt, delayOk, Some(k)).emitted;
            var full := GenerateFrom(tokens, prompt, delayOk, None).emitted;
            |cut| <= |full| && cut == full[..|cut|]
  {
    if IsIntLike(tokens) {
      var n := IntOf(tokens);
      if k > (if n > 0 then n else 0) {
        TokenLoopLateCancel(0, n, prompt, delayOk, k);
        GenerateFromLate(tokens, prompt, delayOk, k);
      } else {
        var loopCut := TokenLoop(0, n, prompt, delayOk, Some(k));
        var loopFull := TokenLoop(0, n, prompt, delayOk, None);
        TokenLoopPrefix(0, n, prompt, delayOk, k);
        GenerateFromEarly(tokens, prompt, delayOk, k);
        GenerateFromUncancelled(tokens, prompt, delayOk);
        var full := GenerateFrom(tokens, prompt, delayOk, None).emitted;
        assert full[..|loopFull.emitted|] == loopFull.emitted;
        PrefixOfPrefix(loopCut.emitted, loopFull.emitted, full);
      }
    }
  }

  /** A prefix of a prefix is a prefix. */
  lemma PrefixOfPrefix<T>(a: seq<T>, b: seq<T>, c: seq<T>)
    requires |a| <= |b| && a == b[..|a|]
    requires |b| <= |c| && b == c[..|b|]
    ensures |a| <= |c| && a == c[..|a|]
  {
  }

  /** A cancellation no later than the last token leaves the loop's outcome as the handler's. */
  lemma GenerateFromEarly(tokens: Value, prompt: Value, delayOk: bool, k: nat)
    requires IsIntLike(tokens) && k <= (if IntOf(tokens) > 0 then IntOf(tokens) else 0)
    ensures GenerateFrom(tokens, prompt, delayOk, Some(k)) == TokenLoop(0, IntOf(tokens), prompt, delayOk, Some(k))
  {
  }

  /** Uncancelled, the handler adds `done` after the loop unless the loop raised. */
  lemma GenerateFromUncancelled(tokens: Value, prompt: Value, delayOk: bool)
    requires IsIntLike(tokens)
    ensures var loop := TokenLoop(0, IntOf(tokens), prompt, delayOk, None);
            GenerateFrom(tokens, prompt, delayOk, None).emitted
              == if loop.raised then loop.emitted else loop.emitted + [DoneEvent(tokens)]
  {
  }

  /** A cancellation after the last token makes the handler run as if never cancelled. */
  lemma GenerateFromLate(tokens: Value, prompt: Value, delayOk: bool, k: nat)
    requires IsIntLike(tokens) && k > (if IntOf(tokens) > 0 then IntOf(tokens) else 0)
    requires TokenLoop(0, IntOf(tokens), prompt, delayOk, Some(k)) == TokenLoop(0, IntOf(tokens), prompt, delayOk, None)
    ensures GenerateFrom(tokens, prompt, delayOk, Some(k)) == GenerateFrom(tokens, prompt, delayOk, None)
  {
  }

  /** A cancellation that would come after the last token changes nothing in the loop. */
  lemma {:induction false} TokenLoopLateCancel(i: nat, n: int, prompt: Value, delayOk: bool, k: nat)
    requires k >= n
    ensures TokenLoop(i, n, prompt, delayOk, Some(k)) == TokenLoop(i, n, prompt, delayOk, None)
    decreases if n > i then n - i else 0
  {
    if i < n && delayOk {
      TokenLoopLateCancel(i + 1, n, prompt, delayOk, k);
    }
  }

  lemma {:induction false} TokenLoopPrefix(i: nat, n: int, prompt: Value, delayOk: bool, k: nat)
    ensures var cut := TokenLoop(i, n, prompt, delayOk, Some(k));
            var full := TokenLoop(i, n, prompt, delayOk, None);
            |cut.emitted| <= |full.emitted| && cut.emitted == full.emitted[..|cut.emitted|]
            && (cut.raised ==> full.raised && cut == full)
    decreases if n > i then n - i else 0
  {
    if i < n && k > i && delayOk {
      TokenLoopPrefix(i + 1, n, prompt, delayOk, k);
    }
  }

  /** The table is the one the four `@registry.handler` decorators build, applied in order. */
  lemma AppRegistryByDecorators()
    ensures AppRegistry() ==
      Register(Register(Register(Register(NewRegistry<Handler>(), "echo", EchoHandler),
        "add", AddHandler), "generate", GenerateHandler), CancelMethod, CancelHandler)
  {
  }
}

=== FILE: json.dfy ===
/**
 * JSON values as the Python side sees them after `json.loads`: `None`, `bool`,
 * `int`, `str`, `list` and `dict`. Text parsing and rendering are not modelled:
 * a parse is an outcome (`Parsed`) supplied by the environment.
 */
module Json {
  import opened PyText

  datatype Value =
    | Null
    | Bool(b: bool)
    | Num(n: int)
    | Str(s: string)
    | Arr(items: seq<Value>)
    | Obj(fields: map<string, Value>)

  /** A Python `dict[str, Any]`. */
  type Object = map<string, Value>

  /** What `json.loads` made of a text: a value, or a decode error. */
  datatype Parsed = Malformed | Parsed(value: Value)

  /** `d.get(key, default)` */
  function Get(d: Object, key: string, default: Value): Value {
    if key in d then d[key] else default
  }

  /** Python truthiness, `bool(v)`. */
  predicate Truthy(v: Value) {
    match v
    case Null => false
    case Bool(b) => b
    case Num(n) => n != 0
    case Str(s) => s != ""
    case Arr(items) => items != []
    case Obj(fields) => fields != map[]
  }

  /** `type(v).__name__` */
  function TypeName(v: Value): string {
    match v
    case Null => "NoneType"
    case Bool(_) => "bool"
    case Num(_) => "int"
    case Str(_) => "str"
    case Arr(_) => "list"
    case Obj(_) => "dict"
  }

  /** `bool` is a subclass of `int` in Python: both take part in integer arithmetic. */
  predicate IsIntLike(v: Value) {
    v.Bool? || v.Num?
  }

  function IntOf(v: Value): int
    requires IsIntLike(v)
  {
    if v.Bool? then (if v.b then 1 else 0) else v.n
  }

  /**
   * `str(v)`. Exact for `None`, booleans, integers and strings; lists and
   * dicts are rendered by a fixed placeholder rather than by their `repr`.
   */
  function PyStr(v: Value): string {
    match v
    case Null => "None"
    case Bool(b) => if b then "True" else "False"
    case Num(n) => IntToString(n)
    case Str(s) => s
    case Arr(_) => "[...]"
    case Obj(_) => "{...}"
  }
}

=== FILE: jsonrpc.dfy ===
/**
 * The JSON-RPC 2.0 wire codec shared by both compartments: error codes,
 * the error object, inbound request validation and outbound response
 * serialisation, modelled after sections 4, 5 and 5.1 of the JSON-RPC 2.0
 * Specification. Where the source departs from it, the model follows the
 * source: ids are always strings, `params` must be an object, and an error
 * for a missing or empty id carries the string "null", not JSON null.
 */
module JsonRpc {
  import opened Wrappers
  import opened Json
  import opened PyText

  // Standard error codes, section 5.1 of the JSON-RPC 2.0 Specification.
  const ParseErrorCode: int := -32700
  const InvalidRequestCode: int := -32600
  const MethodNotFoundCode: int := -32601
  const InvalidParamsCode: int := -32602
  const InternalErrorCode: int := -32603

  /** The only protocol version accepted and emitted. */
  const Version: string := "2.0"

  // Validation messages, one per check, in the order the checks run.
  const NotObjectMessage: string := "request must be a JSON object"
  const BadVersionMessage: string := "missing or invalid 'jsonrpc' field"
  const BadMethodMessage: string := "missing or invalid 'method' field"
  const BadParamsMessage: string := "'params' must be a JSON object"

  /** The error object; a `data` of `Null` stands for Python's `None` (absent). */
  datatype Error = Error(code: int, message: string, data: Value)

  /** Serialised error object: `data` appears exactly when it is not `None`. */
  function ErrorToDict(e: Error): (d: Object)
    ensures d.Keys == if e.data == Null then {"code", "message"} else {"code", "message", "data"}
    ensures d["code"] == Num(e.code) && d["message"] == Str(e.message)
    ensures "data" in d ==> d["data"] == e.data
  {
    var base := map["code" := Num(e.code), "message" := Str(e.message)];
    if e.data != Null then base["data" := e.data] else base
  }

  /** An inbound or outbound request envelope. */
  datatype Request = Request(methodName: string, params: Object, id: string, jsonrpc: string)

  /** `asdict(request)` */
  function RequestToDict(r: Request): (d: Object)
    ensures d.Keys == {"jsonrpc", "method", "params", "id"}
    ensures d["id"] == Str(r.id) && d["params"] == Obj(r.params)
  {
    map["method" := Str(r.methodName), "params" := Obj(r.params), "id" := Str(r.id), "jsonrpc" := Str(r.jsonrpc)]
  }

  // The four checks of `from_dict`, each stated on its own.
  predicate HasVersion(d: Object) {
    Get(d, "jsonrpc", Null) == Str(Version)
  }

  predicate HasMethod(d: Object) {
    "method" in d && d["method"].Str? && d["method"].s != ""
  }

  predicate HasObjectParams(d: Object) {
    "params" !in d || d["params"].Obj?
  }

  /** An envelope `from_dict` accepts: an object passing all four checks. */
  predicate WellFormed(raw: Value) {
    raw.Obj? && HasVersion(raw.fields) && HasMethod(raw.fields) && HasObjectParams(raw.fields)
  }

  /**
   * `JsonRpcRequest.from_dict`. The checks run in a fixed order and the first
   * failing one decides the message; on success `params` defaults to `{}` and
   * an absent or null id is replaced by the freshId identifier.
   */
  function FromDict(raw: Value, freshId: Uuid): (r: Result<Request, string>)
    ensures r == Failure(NotObjectMessage) <==> !raw.Obj?
    ensures r == Failure(BadVersionMessage) <==> raw.Obj? && !HasVersion(raw.fields)
    ensures r == Failure(BadMethodMessage) <==>
              raw.Obj? && HasVersion(raw.fields) && !HasMethod(raw.fields)
    ensures r == Failure(BadParamsMessage) <==>
              raw.Obj? && HasVersion(raw.fields) && HasMethod(raw.fields) && !HasObjectParams(raw.fields)
    ensures r.Success? <==> WellFormed(raw)
    ensures r.Success? ==>
              && r.value.jsonrpc == Version
              && r.value.methodName == raw.fields["method"].s
              && r.value.methodName != ""
              && ("params" !in raw.fields ==> r.value.params == map[])
              && ("params" in raw.fields ==> Obj(r.value.params) == raw.fields["params"])
    ensures r.Success? && Get(raw.fields, "id", Null) == Null ==> r.value.id == freshId
    ensures r.Success? && Get(raw.fields, "id", Null) != Null ==> r.value.id == PyStr(raw.fields["id"])
  {
    if !raw.Obj? then Failure(NotObjectMessage)
    else
      var d := raw.fields;
      if Get(d, "jsonrpc", Null) != Str(Version) then Failure(BadVersionMessage)
      else
        var name := Get(d, "method", Null);
        if !name.Str? || name.s == "" then Failure(BadMethodMessage)
        else
          var params := Get(d, "params", Obj(map[]));
          if !params.Obj? then Failure(BadParamsMessage)
          else
            var rawId := Get(d, "id", Null);
            var id := if rawId == Null then freshId else PyStr(rawId);
            Success(Request(name.s, params.fields, id, Version))
  }

  /** Serialising a request and validating it again gives back the same request. */
  lemma FromDictRoundTrip(r: Request, freshId: Uuid)
    requires r.methodName != "" && r.jsonrpc == Version
    ensures FromDict(Obj(RequestToDict(r)), freshId) == Success(r)
  {
  }

  /** An outbound response: `error` set means failure, whatever `result` holds. */
  datatype Response = Response(id: string, result: Value, error: Option<Error>, jsonrpc: string)

  /** `JsonRpcResponse.to_dict`: version and id always, then exactly one of `error`/`result`. */
  function ResponseToDict(r: Response): (d: Object)
    ensures d.Keys == {"jsonrpc", "id", if r.error.Some? then "error" else "result"}
    ensures d["jsonrpc"] == Str(r.jsonrpc) && d["id"] == Str(r.id)
    ensures r.error.Some? ==> d["error"] == Obj(ErrorToDict(r.error.value))
    ensures r.error.None? ==> d["result"] == r.result
  {
    var d := map["jsonrpc" := Str(r.jsonrpc), "id" := Str(r.id)];
    if r.error.Some? then d["error" := Obj(ErrorToDict(r.error.value))] else d["result" := r.result]
  }

  /** `JsonRpcResponse.success`: the result is carried verbatim under the request id. */
  function SuccessResponse(id: string, result: Value): (r: Response)
    ensures ResponseToDict(r) == map["jsonrpc" := Str(Version), "id" := Str(id), "result" := result]
  {
    Response(id, result, None, Version)
  }

  /** `JsonRpcResponse.fail`: a missing or empty id becomes the text "null". */
  function FailResponse(id: Option<string>, code: int, message: string, data: Value): (r: Response)
    ensures r.id == if id == None || id == Some("") then "null" else id.value
    ensures r.id != ""
    ensures r.error == Some(Error(code, message, data))
    ensures ResponseToDict(r).Keys == {"jsonrpc", "id", "error"}
  {
    Response(if id.Some? && id.value != "" then id.value else "null", Null, Some(Error(code, message, data)), Version)
  }
}

=== FILE: pytext.dfy ===
/** The few Python `str` operations the gateway relies on, over `seq<char>`. */
module PyText {

  /** Python's `str.isspace` for one character (the Unicode whitespace set). */
  predicate IsSpace(c: char) {
    || c == ' '
    || ('\t' <= c <= '\r')
    || ('\U{1C}' <= c <= '\U{1F}')
    || c == '\U{85}'
    || c == '\U{A0}'
    || c == '\U{1680}'
    || ('\U{2000}' <= c <= '\U{200A}')
    || c == '\U{2028}'
    || c == '\U{2029}'
    || c == '\U{202F}'
    || c == '\U{205F}'
    || c == '\U{3000}'
  }

  /** `s.startswith(prefix)` */
  predicate StartsWith(s: string, prefix: string) {
    |prefix| <= |s| && s[..|prefix|] == prefix
  }

  /** `s.lstrip()`: the longest suffix of `s` that does not start with whitespace. */
  function TrimStart(s: string): (r: string)
    ensures |r| <= |s| && r == s[|s| - |r|..]
    ensures forall i :: 0 <= i < |s| - |r| ==> IsSpace(s[i])
    ensures r == [] || !IsSpace(r[0])
  {
    if s != [] && IsSpace(s[0]) then TrimStart(s[1..]) else s
  }

  /** `s.rstrip()`: the longest prefix of `s` that does not end with whitespace. */
  function TrimEnd(s: string): (r: string)
    ensures |r| <= |s| && r == s[..|r|]
    ensures forall i :: |r| <= i < |s| ==> IsSpace(s[i])
    ensures r == [] || !IsSpace(r[|r| - 1])
  {
    if s != [] && IsSpace(s[|s| - 1]) then TrimEnd(s[..|s| - 1]) else s
  }

  /** `s.strip()` */
  function Strip(s: string): string {
    TrimEnd(TrimStart(s))
  }

  /** A text that `strip()` leaves alone: empty, or not starting or ending with whitespace. */
  predicate Stripped(s: string) {
    s == [] || (!IsSpace(s[0]) && !IsSpace(s[|s| - 1]))
  }

  lemma StripOfStripped(s: string)
    requires Stripped(s)
    ensures Strip(s) == s
  {
  }

  /** Decimal digit character for 0..9. */
  function DigitChar(d: nat): char
    requires d < 10
  {
    "0123456789"[d]
  }

  /** `str(n)` for a non-negative integer. */
  function NatToString(n: nat): (r: string)
    ensures |r| > 0
    ensures forall i :: 0 <= i < |r| ==> '0' <= r[i] <= '9'
  {
    if n < 10 then [DigitChar(n)] else NatToString(n / 10) + [DigitChar(n % 10)]
  }

  /** `str(n)` for any integer: a minus sign exactly for negative numbers. */
  function IntToString(n: int): (r: string)
    ensures |r| > 0
    ensures r[0] == '-' <==> n < 0
  {
    if n < 0 then "-" + NatToString(-n) else NatToString(n)
  }

  /** `uuid.uuid4().hex`: 32 lower-case hexadecimal digits. */
  predicate IsUuidHex(s: string) {
    |s| == 32 && forall i :: 0 <= i < |s| ==> s[i] in "0123456789abcdef"
  }

  /** Fresh identifiers are drawn by the environment; only their shape is known. */
  type Uuid = s: string | IsUuidHex(s) witness "00000000000000000000000000000000"
}

=== FILE: sequtil.dfy ===
/** Small facts about sequences of names shared by the registry and the stream manager. */
module SeqUtil {

  /** No element occurs twice. */
  predicate Distinct(s: seq<string>) {
    forall i, j :: 0 <= i < j < |s| ==> s[i] != s[j]
  }

  /** `s` with every occurrence of `x` removed, order kept. */
  function Without(s: seq<string>, x: string): (r: seq<string>)
    ensures |r| <= |s|
    ensures forall y :: y in r <==> y in s && y != x
    ensures Distinct(s) ==> Distinct(r)
  {
    if s == [] then []
    else
      var rest := Without(s[1..], x);
      var head := if s[0] == x then [] else [s[0]];
      assert Distinct(s) ==> Distinct(head + rest) by {
        if Distinct(s) {
          DistinctCons(head, rest);
        }
      }
      head + rest
  }

  /** Putting at most one new name in front keeps a sequence distinct. */
  lemma DistinctCons(head: seq<string>, rest: seq<string>)
    requires |head| <= 1 && Distinct(rest)
    requires forall y :: y in head ==> y !in rest
    ensures Distinct(head + rest)
  {
    forall i, j | 0 <= i < j < |head + rest| ensures (head + rest)[i] != (head + rest)[j] {
      if head != [] && i == 0 {
        assert (head + rest)[j] in rest;
      } else {
        assert (head + rest)[i] == rest[i - |head|];
        assert (head + rest)[j] == rest[j - |head|];
      }
    }
  }

  lemma {:induction false} WithoutAppend(a: seq<string>, b: seq<string>, x: string)
    ensures Without(a + b, x) == Without(a, x) + Without(b, x)
  {
    if a != [] {
      var head := if a[0] == x then [] else [a[0]];
      assert a + b == [a[0]] + (a[1..] + b);
      WithoutCons(a[0], a[1..] + b, x);
      WithoutCons(a[0], a[1..], x);
      assert [a[0]] + a[1..] == a;
      WithoutAppend(a[1..], b, x);
      assert head + (Without(a[1..], x) + Without(b, x)) == (head + Without(a[1..], x)) + Without(b, x);
    } else {
      assert a + b == b;
    }
  }

  /** Removing a name that does not occur changes nothing. */
  lemma {:induction false} WithoutAbsent(s: seq<string>, x: string)
    requires x !in s
    ensures Without(s, x) == s
  {
    if s != [] {
      assert x !in s[1..];
      WithoutAbsent(s[1..], x);
      assert [s[0]] + s[1..] == s;
    }
  }

  /** Removal looks at the first name, then at the rest. */
  lemma WithoutCons(y: string, s: seq<string>, x: string)
    ensures Without([y] + s, x) == (if y == x then [] else [y]) + Without(s, x)
  {
    assert ([y] + s)[0] == y && ([y] + s)[1..] == s;
  }
}

=== FILE: server.dfy ===
/**
 * The `/rpc` endpoint: classify one POST body into a parse error, an invalid
 * request, a streaming reply or a unary reply, and frame a stream as
 * server-sent events.
 */
module Server {
  import opened Wrappers
  import opened Json
  import opened PyText
  import opened JsonRpc
  import opened Dispatcher
  import opened Handlers
  import Streaming

  /**
   * What the endpoint answers: one JSON-RPC response, or an event stream
   * whose generator will run `methodName` on `params` under `streamId`.
   */
  datatype Reply =
    | Unary(response: Response)
    | Stream(streamId: string, methodName: string, params: Object)

  /** The error reply of `_error_response`: no data, status 200. */
  function ErrorReply(id: Option<string>, code: int, message: string): (r: Reply)
    ensures r.Unary? && r.response.error == Some(Error(code, message, Null))
    ensures r.response.id == if id == None || id == Some("") then "null" else id.value
    ensures ResponseToDict(r.response).Keys == {"jsonrpc", "id", "error"}
  {
    Unary(FailResponse(id, code, message, Null))
  }

  /** The reply for a handler exception that escaped `dispatch`. */
  function HandlerErrorReply(id: string, e: Exception): (r: Reply)
    ensures e.MethodNotFoundError? ==> r == ErrorReply(Some(id), -32601, "Method not found: " + e.methodName)
    ensures e.OtherError? ==> r == ErrorReply(Some(id), -32603, "Internal error: " + e.text)
  {
    match e
    case MethodNotFoundError(_) => ErrorReply(Some(id), e.Code(), e.Text())
    case OtherError(text) => ErrorReply(Some(id), InternalErrorCode, "Internal error: " + text)
  }

  /**
   * `rpc_endpoint`. `body` is what `json.loads` made of the request body,
   * `reqFresh` the identifier `from_dict` would generate for a missing id,
   * `streamFresh` the one `new_stream_id` would return. The manager changes
   * only when a unary handler (the cancel control method) changes it.
   */
  function RpcEndpoint(body: Parsed, reqFresh: Uuid, streamFresh: Uuid,
                       reg: Registry<Handler>, mgr: Streaming.Manager): (r: (Reply, Streaming.Manager))
    requires Streaming.Valid(mgr)
    ensures Streaming.Valid(r.1)
    ensures body.Malformed? ==> r == (ErrorReply(None, ParseErrorCode, "Parse error"), mgr)
    ensures body.Parsed? && FromDict(body.value, reqFresh).Failure? ==>
              r == (ErrorReply(None, InvalidRequestCode, FromDict(body.value, reqFresh).error), mgr)
    ensures body.Parsed? && FromDict(body.value, reqFresh).Success? ==>
              var req := FromDict(body.value, reqFresh).value;
              && (req.methodName in StreamingMethods ==> r == (Stream(streamFresh, req.methodName, req.params), mgr))
              && (req.methodName !in StreamingMethods && !IsRegistered(reg, req.methodName) ==>
                    r == (ErrorReply(Some(req.id), MethodNotFoundCode, "Method not found: " + req.methodName), mgr))
              && (req.methodName !in StreamingMethods && IsRegistered(reg, req.methodName) ==>
                    var (outcome, mgr') := Invoke(reg.handlers[req.methodName], req.params, mgr);
                    && r.1 == mgr'
                    && (outcome.Success? ==> r.0 == Unary(SuccessResponse(req.id, outcome.value)))
                    && (outcome.Failure? ==> r.0 == HandlerErrorReply(req.id, outcome.error)))
  {
    match body
    case Malformed => (ErrorReply(None, ParseErrorCode, "Parse error"), mgr)
    case Parsed(raw) =>
      match FromDict(raw, reqFresh)
      case Failure(message) => (ErrorReply(None, InvalidRequestCode, message), mgr)
      case Success(req) =>
        if req.methodName in StreamingMethods then (Stream(streamFresh, req.methodName, req.params), mgr)
        else
          match Dispatch(reg, req.methodName, req.params, (h: Handler, p: Object) => Invoke(h, p, mgr))
          case Failure(e) => (HandlerErrorReply(req.id, e), mgr)
          case Success(ran) =>
            var (outcome, mgr') := ran;
            match outcome
            case Success(v) => (Unary(SuccessResponse(req.id, v)), mgr')
            case Failure(e) => (HandlerErrorReply(req.id, e), mgr')
  }

  /** The codes an error reply of the endpoint can carry. */
  const ReplyErrorCodes: set<int> := {ParseErrorCode, InvalidRequestCode, MethodNotFoundCode, InternalErrorCode}

  /**
   * Every error the endpoint returns carries one of four standard codes, and
   * the two errors raised before a request id is known carry the id "null".
   */
  lemma ReplyErrors(body: Parsed, reqFresh: Uuid, streamFresh: Uuid,
                       reg: Registry<Handler>, mgr: Streaming.Manager)
    requires Streaming.Valid(mgr)
    ensures var reply := RpcEndpoint(body, reqFresh, streamFresh, reg, mgr).0;
            reply.Unary? && reply.response.error.Some? ==>
              && reply.response.error.value.code in ReplyErrorCodes
              && (reply.response.error.value.code in {ParseErrorCode, InvalidRequestCode} ==> reply.response.id == "null")
  {
  }

  /**
   * A unary reply answers under the request's own id; only an error reply
   * turns an empty id into "null".
   */
  lemma ReplyKeepsRequestId(raw: Value, reqFresh: Uuid, streamFresh: Uuid,
                            reg: Registry<Handler>, mgr: Streaming.Manager)
    requires Streaming.Valid(mgr)
    requires FromDict(raw, reqFresh).Success?
    ensures var id := FromDict(raw, reqFresh).value.id;
            var reply := RpcEndpoint(Parsed(raw), reqFresh, streamFresh, reg, mgr).0;
            reply.Unary? ==>
              reply.response.id == (if id == "" && reply.response.error.Some? then "null" else id)
  {
  }

  /** The streaming path never consults the unary registry. */
  lemma StreamingIgnoresRegistry(body: Parsed, reqFresh: Uuid, streamFresh: Uuid,
                                 reg1: Registry<Handler>, reg2: Registry<Handler>, mgr: Streaming.Manager)
    requires Streaming.Valid(mgr)
    requires RpcEndpoint(body, reqFresh, streamFresh, reg1, mgr).0.Stream?
    ensures RpcEndpoint(body, reqFresh, streamFresh, reg1, mgr) == RpcEndpoint(body, reqFresh, streamFresh, reg2, mgr)
    ensures GetStreamHandler(RpcEndpoint(body, reqFresh, streamFresh, reg1, mgr).0.methodName).Some?
  {
  }

  // ---------------------------------------------------------------------
  // Server-sent events.

  function StartFrame(streamId: string): Value {
    Obj(map["type" := Str("stream_start"), "stream_id" := Str(streamId)])
  }

  function EndFrame(streamId: string): Value {
    Obj(map["type" := Str("stream_end"), "stream_id" := Str(streamId)])
  }

  const NoHandlerFrame: Value := Obj(map["error" := Str("no stream handler")])

  function EventFrames(events: seq<Streaming.Event>): (r: seq<Value>)
    ensures |r| == |events|
    ensures forall i :: 0 <= i < |events| ==> r[i] == Obj(events[i])
  {
    if events == [] then [] else [Obj(events[0])] + EventFrames(events[1..])
  }

  /**
   * `_sse_generator`: the values it yields, one per frame, given the events
   * the stream manager delivered. The stream id leads and closes the stream;
   * a method without a stream handler yields a single error frame.
   */
  function SseFrames(methodName: string, streamId: string, delivered: seq<Streaming.Event>): (frames: seq<Value>)
    ensures GetStreamHandler(methodName).None? ==> frames == [NoHandlerFrame]
    ensures GetStreamHandler(methodName).Some? ==>
              && |frames| == |delivered| + 2
              && frames[0] == StartFrame(streamId)
              && frames[|frames| - 1] == EndFrame(streamId)
              && forall i :: 0 <= i < |delivered| ==> frames[i + 1] == Obj(delivered[i])
  {
    match GetStreamHandler(methodName)
    case None => [NoHandlerFrame]
    case Some(_) => [StartFrame(streamId)] + EventFrames(delivered) + [EndFrame(streamId)]
  }

  /** The headers of the streaming response. */
  function StreamHeaders(reply: Reply): (h: map<string, string>)
    requires reply.Stream?
    ensures h.Keys == {"Cache-Control", "X-Stream-Id"}
    ensures h["X-Stream-Id"] == reply.streamId && h["Cache-Control"] == "no-cache"
  {
    map["Cache-Control" := "no-cache", "X-Stream-Id" := reply.streamId]
  }

  /**
   * On the streaming path the id in the `X-Stream-Id` header is the freshly
   * drawn stream id, and the first and last frames carry that same id.
   */
  lemma HeaderNamesFramedStream(body: Parsed, reqFresh: Uuid, streamFresh: Uuid, reg: Registry<Handler>,
                                mgr: Streaming.Manager, delivered: seq<Streaming.Event>)
    requires Streaming.Valid(mgr)
    requires RpcEndpoint(body, reqFresh, streamFresh, reg, mgr).0.Stream?
    ensures var reply := RpcEndpoint(body, reqFresh, streamFresh, reg, mgr).0;
            var frames := SseFrames(reply.methodName, reply.streamId, delivered);
            && StreamHeaders(reply)["X-Stream-Id"] == streamFresh
            && |frames| == |delivered| + 2
            && frames[0] == StartFrame(streamFresh)
            && frames[|frames| - 1] == EndFrame(streamFresh)
  {
  }

  /** One SSE frame as text, given the JSON encoder. */
  function FrameText(dumps: Value -> string, v: Value): string {
    "data: " + dumps(v) + "\n\n"
  }

  /** The whole event-stream body. */
  function SseBody(dumps: Value -> string, frames: seq<Value>): string {
    if frames == [] then "" else FrameText(dumps, frames[0]) + SseBody(dumps, frames[1..])
  }

  // ---------------------------------------------------------------------
  // Concrete request/response pairs.

  function RequestValue(methodName: string, params: Object, id: Option<string>): Value {
    var d := map["jsonrpc" := Str(Version), "method" := Str(methodName), "params" := Obj(params)];
    Obj(if id.Some? then d["id" := Str(id.value)] else d)
  }

  /** Echo: `{"msg": "hi"}` under id "1" comes back as the result under id "1". */
  lemma EchoScenario(reqFresh: Uuid, streamFresh: Uuid, mgr: Streaming.Manager)
    requires Streaming.Valid(mgr)
    ensures var params := map["msg" := Str("hi")];
            var r := RpcEndpoint(Parsed(RequestValue("echo", params, Some("1"))), reqFresh, streamFresh, AppRegistry(), mgr);
            r == (Unary(SuccessResponse("1", Obj(params))), mgr)
            && ResponseToDict(r.0.response) == map["jsonrpc" := Str(Version), "id" := Str("1"), "result" := Obj(params)]
  {
    var params := map["msg" := Str("hi")];
    var raw := RequestValue("echo", params, Some("1"));
    assert "echo" !in StreamingMethods;
    assert FromDict(raw, reqFresh) == Success(Request("echo", params, "1", Version));
  }

  /** Add: 3 + 4 under a generated id gives `{"result": 7}` under that id. */
  lemma AddScenario(reqFresh: Uuid, streamFresh: Uuid, mgr: Streaming.Manager)
    requires Streaming.Valid(mgr)
    ensures var params := map["a" := Num(3), "b" := Num(4)];
            var r := RpcEndpoint(Parsed(RequestValue("add", params, None)), reqFresh, streamFresh, AppRegistry(), mgr);
            r == (Unary(SuccessResponse(reqFresh, Obj(map["result" := Num(7)]))), mgr)
  {
    var params := map["a" := Num(3), "b" := Num(4)];
    var raw := RequestValue("add", params, None);
    assert "add" !in StreamingMethods;
    assert FromDict(raw, reqFresh) == Success(Request("add", params, reqFresh, Version));
  }

  /**
   * Generate: three tokens with an integer delay give a stream of six
   * frames: start, three token events indexed 0 to 2, done, end.
   */
  lemma GenerateScenario(reqFresh: Uuid, streamFresh: Uuid, mgr: Streaming.Manager)
    requires Streaming.Valid(mgr)
    ensures var params := map["tokens" := Num(3), "delay" := Num(0)];
            RpcEndpoint(Parsed(RequestValue("generate", params, None)), reqFresh, streamFresh, AppRegistry(), mgr)
              == (Stream(streamFresh, "generate", params), mgr)
    ensures SseFrames("generate", streamFresh, GenerateStream(map["tokens" := Num(3), "delay" := Num(0)], None).emitted)
              == [StartFrame(streamFresh),
                  Obj(TokenEvent(0, Str(""))), Obj(TokenEvent(1, Str(""))), Obj(TokenEvent(2, Str(""))),
                  Obj(DoneEvent(Num(3))), EndFrame(streamFresh)]
  {
    var params := map["tokens" := Num(3), "delay" := Num(0)];
    var raw := RequestValue("generate", params, None);
    assert FromDict(raw, reqFresh) == Success(Request("generate", params, reqFresh, Version));
    ThreeTokenFrames(streamFresh);
  }

  lemma ThreeTokenFrames(streamId: string)
    ensures SseFrames("generate", streamId, GenerateStream(map["tokens" := Num(3), "delay" := Num(0)], None).emitted)
              == [StartFrame(streamId),
                  Obj(TokenEvent(0, Str(""))), Obj(TokenEvent(1, Str(""))), Obj(TokenEvent(2, Str(""))),
                  Obj(DoneEvent(Num(3))), EndFrame(streamId)]
  {
    ThreeTokens();
    var events := [TokenEvent(0, Str("")), TokenEvent(1, Str("")), TokenEvent(2, Str("")), DoneEvent(Num(3))];
    FourEventFrames(events);
    assert SseFrames("generate", streamId, events) == [StartFrame(streamId)] + EventFrames(events) + [EndFrame(streamId)];
  }

  lemma FourEventFrames(events: seq<Streaming.Event>)
    requires |events| == 4
    ensures EventFrames(events) == [Obj(events[0]), Obj(events[1]), Obj(events[2]), Obj(events[3])]
  {
  }

  /** `generate_stream` with three tokens, an integer delay and no cancellation. */
  lemma ThreeTokens()
    ensures GenerateStream(map["tokens" := Num(3), "delay" := Num(0)], None)
            == StreamOutcome([TokenEvent(0, Str("")), TokenEvent(1, Str("")), TokenEvent(2, Str("")), DoneEvent(Num(3))], false)
  {
    var params := map["tokens" := Num(3), "delay" := Num(0)];
    var p := Str("");
    assert Get(params, "tokens", Num(5)) == Num(3) && Get(params, "prompt", Str("")) == p && ValidDelay(params);
    assert TokenLoop(3, 3, p, true, None) == StreamOutcome([], false);
    assert TokenLoop(2, 3, p, true, None) == StreamOutcome([TokenEvent(2, p)], false);
    assert TokenLoop(1, 3, p, true, None) == StreamOutcome([TokenEvent(1, p), TokenEvent(2, p)], false);
  }

  /** A body that is not valid JSON is a parse error with id "null". */
  lemma MalformedScenario(reqFresh: Uuid, streamFresh: Uuid, reg: Registry<Handler>, mgr: Streaming.Manager)
    requires Streaming.Valid(mgr)
    ensures var r := RpcEndpoint(Malformed, reqFresh, streamFresh, reg, mgr).0;
            r.Unary? && r.response.id == "null" && r.response.error == Some(JsonRpc.Error(-32700, "Parse error", Null))
  {
  }
}

=== FILE: streaming.dfy ===
/**
 * Stream bookkeeping as a sequential state machine.
 *
 * One `run_stream` call is a `Run`: its `_StreamEntry`, the bounded event
 * buffer between the handler task and the consumer, and where the call is in
 * its lifecycle. The `StreamManager` holds every run ever started (a run's
 * index stands for the identity of its entry object), the id-to-entry map as
 * `table`, and the map's key order as `order`.
 *
 * Concurrency is abstracted: each step below is one atomic action of the
 * handler task, the consumer, `cancel_stream` or the timeout, and any
 * interleaving of enabled steps is a possible execution. A handler blocked on
 * a full buffer is a handler whose `Emit` is not enabled.
 */
module Streaming {
  import opened Wrappers
  import opened Json
  import opened PyText
  import opened SeqUtil

  /** Default policy timeout, in seconds; timing itself is not modelled. */
  const DefaultTimeout: nat := 120
  /** Default number of queued events before the handler blocks. */
  const DefaultBufferSize: nat := 64

  /** A handler event: an arbitrary mapping. */
  type Event = Object

  /** An anyio cancel scope, reduced to its `cancel_called` flag. */
  datatype Scope = Scope(cancelCalled: bool)

  /** `_StreamEntry`: no scope until the handler task has started. */
  datatype Entry = Entry(streamId: string, scope: Option<Scope>, done: bool)

  /**
   * Registered: entry inserted, handler task not started yet.
   * Running: handler running inside its cancel scope.
   * Closed: handler ended (normally, cancelled or by raising); send side closed, entry done.
   * Drained: the consumer read the end of the feed and `run_stream` finished.
   */
  datatype Phase = Registered | Running | Closed | Drained

  /** How a handler task ended; the bookkeeping treats all three alike. */
  datatype Ending = Returned | Raised(text: string) | ScopeCancelled

  /**
   * One `run_stream` call. `accepted` is every event that entered the buffer,
   * in order; `delivered` is every event the consumer has taken out.
   */
  datatype Run = Run(
    entry: Entry,
    bufferSize: nat,
    buffer: seq<Event>,
    accepted: seq<Event>,
    delivered: seq<Event>,
    phase: Phase)

  /**
   * How many events the buffer holds before `send` blocks. A `buffer_size` of
   * 0 (a hand-over to a waiting receiver) is treated as a single slot.
   */
  function Slots(bufferSize: nat): nat {
    if bufferSize == 0 then 1 else bufferSize
  }

  /** `ctx.cancelled`: the scope's `cancel_called`. */
  predicate Cancelled(run: Run) {
    run.entry.scope.Some? && run.entry.scope.value.cancelCalled
  }

  /**
   * What holds of every run: the buffer is bounded, events come out in the
   * order they went in, the scope exists exactly once the handler task has started,
   * and the entry is done exactly once the handler has ended.
   */
  ghost predicate RunValid(run: Run) {
    && |run.buffer| <= Slots(run.bufferSize)
    && run.delivered + run.buffer == run.accepted
    && (run.phase == Registered <==> run.entry.scope.None?)
    && (run.phase == Registered ==> run.accepted == [])
    && (run.entry.done <==> run.phase == Closed || run.phase == Drained)
    && (run.phase == Drained ==> run.buffer == [])
  }

  /** The state `run_stream` creates before anything is yielded. */
  function NewRun(streamId: string, bufferSize: nat): (r: Run)
    ensures RunValid(r)
    ensures r.entry.streamId == streamId && !r.entry.done && r.entry.scope.None?
    ensures r.phase == Registered && r.delivered == [] && r.accepted == []
  {
    Run(Entry(streamId, None, false), bufferSize, [], [], [], Registered)
  }

  /** The handler task starts: it opens its cancel scope and records it in the entry. */
  function StartHandler(run: Run): (r: Run)
    requires run.phase == Registered
    ensures r.phase == Running && r.entry.scope == Some(Scope(false)) && !Cancelled(r)
    ensures r.entry.streamId == run.entry.streamId && r.entry.done == run.entry.done
    ensures r.buffer == run.buffer && r.accepted == run.accepted && r.delivered == run.delivered
    ensures RunValid(run) ==> RunValid(r)
  {
    run.(entry := run.entry.(scope := Some(Scope(false))), phase := Running)
  }

  /** `ctx.emit` can complete now: it is a no-op once cancelled, else it needs a free slot. */
  predicate CanEmit(run: Run) {
    run.phase == Running && (Cancelled(run) || |run.buffer| < Slots(run.bufferSize))
  }

  /**
   * `await ctx.emit(e)`. After cancellation nothing changes; otherwise the
   * event is queued behind every earlier one.
   */
  function Emit(run: Run, e: Event): (r: Run)
    requires CanEmit(run)
    ensures Cancelled(run) ==> r == run
    ensures !Cancelled(run) ==> r.buffer == run.buffer + [e] && r.accepted == run.accepted + [e]
    ensures r.entry == run.entry && r.phase == run.phase && r.delivered == run.delivered
    ensures RunValid(run) ==> RunValid(r)
  {
    if Cancelled(run) then run
    else run.(buffer := run.buffer + [e], accepted := run.accepted + [e])
  }

  /** `scope.cancel()`, by `cancel_stream` or by the timeout expiring. */
  function CancelScope(run: Run): (r: Run)
    requires run.entry.scope.Some?
    ensures Cancelled(r)
    ensures r.entry.streamId == run.entry.streamId && r.entry.done == run.entry.done
    ensures r.buffer == run.buffer && r.accepted == run.accepted && r.delivered == run.delivered
    ensures r.phase == run.phase
    ensures RunValid(run) ==> RunValid(r)
  {
    run.(entry := run.entry.(scope := Some(Scope(true))))
  }

  /**
   * The handler task ends, however it ended: the send side is closed and the
   * entry marked done; nothing queued is lost.
   */
  function Finish(run: Run, ending: Ending): (r: Run)
    requires run.phase == Running
    ensures r.phase == Closed && r.entry == run.entry.(done := true)
    ensures r.buffer == run.buffer && r.accepted == run.accepted && r.delivered == run.delivered
    ensures RunValid(run) ==> RunValid(r)
  {
    run.(entry := run.entry.(done := true), phase := Closed)
  }

  /** The consumer can take an event. */
  predicate CanReceive(run: Run) {
    (run.phase == Running || run.phase == Closed) && run.buffer != []
  }

  /** The consumer takes the oldest queued event: the next one in emission order. */
  function Receive(run: Run): (r: Run)
    requires CanReceive(run)
    ensures r.delivered == run.delivered + [run.buffer[0]]
    ensures RunValid(run) ==> |r.delivered| <= |r.accepted| && r.delivered == run.accepted[..|run.delivered| + 1]
    ensures r.entry == run.entry && r.phase == run.phase && r.accepted == run.accepted
    ensures RunValid(run) ==> RunValid(r)
  {
    var r := run.(buffer := run.buffer[1..], delivered := run.delivered + [run.buffer[0]]);
    assert RunValid(run) ==> r.delivered + r.buffer == run.delivered + run.buffer;
    r
  }

  /** The consumer's `async for` ends: the send side is closed and nothing is queued. */
  predicate FeedEnded(run: Run) {
    run.phase == Closed && run.buffer == []
  }

  /** `run_stream` leaves its task group: the run is over. */
  function EndRun(run: Run): (r: Run)
    requires FeedEnded(run)
    ensures r.phase == Drained && r.delivered == run.delivered && r.accepted == run.accepted
    ensures RunValid(run) ==> RunValid(r) && r.delivered == r.accepted
  {
    run.(phase := Drained)
  }

  // ---------------------------------------------------------------------
  // Schedules of one run.

  /** One atomic action on a run, by the handler task, a canceller or the consumer. */
  datatype Action =
    | Start
    | HandlerEmit(e: Event)
    | RequestCancel
    | HandlerEnd(ending: Ending)
    | ConsumerTake
    | ConsumerEnd

  predicate Enabled(run: Run, a: Action) {
    match a
    case Start => run.phase == Registered
    case HandlerEmit(_) => CanEmit(run)
    case RequestCancel => run.entry.scope.Some? && !run.entry.done
    case HandlerEnd(_) => run.phase == Running
    case ConsumerTake => CanReceive(run)
    case ConsumerEnd => FeedEnded(run)
  }

  function Step(run: Run, a: Action): Run
    requires Enabled(run, a)
  {
    match a
    case Start => StartHandler(run)
    case HandlerEmit(e) => Emit(run, e)
    case RequestCancel => CancelScope(run)
    case HandlerEnd(ending) => Finish(run, ending)
    case ConsumerTake => Receive(run)
    case ConsumerEnd => EndRun(run)
  }

  /** The run after a schedule, or None if some action was not enabled when its turn came. */
  function Replay(run: Run, acts: seq<Action>): Option<Run>
    decreases |acts|
  {
    if acts == [] then Some(run)
    else if Enabled(run, acts[0]) then Replay(Step(run, acts[0]), acts[1..])
    else None
  }

  /**
   * The events a handler gets into the feed under a schedule: its emits up to
   * the first cancellation (none at all if it starts cancelled).
   */
  function EmittedBeforeCancel(acts: seq<Action>, cancelled: bool): seq<Event> {
    if acts == [] then []
    else match acts[0]
      case HandlerEmit(e) => (if cancelled then [] else [e]) + EmittedBeforeCancel(acts[1..], cancelled)
      case RequestCancel => EmittedBeforeCancel(acts[1..], true)
      case _ => EmittedBeforeCancel(acts[1..], cancelled)
  }

  /** Every event a schedule emits, cancelled or not. */
  function AllEmitted(acts: seq<Action>): seq<Event> {
    if acts == [] then []
    else (if acts[0].HandlerEmit? then [acts[0].e] else []) + AllEmitted(acts[1..])
  }

  lemma {:induction false} ReplayAccepts(run: Run, acts: seq<Action>)
    requires RunValid(run)
    requires Replay(run, acts).Some?
    ensures RunValid(Replay(run, acts).value)
    ensures Replay(run, acts).value.accepted == run.accepted + EmittedBeforeCancel(acts, Cancelled(run))
    ensures Cancelled(run) ==> Cancelled(Replay(run, acts).value)
    decreases |acts|
  {
    if acts != [] {
      var next := Step(run, acts[0]);
      StepAccepts(run, acts[0]);
      ReplayAccepts(next, acts[1..]);
      var head := if acts[0].HandlerEmit? && !Cancelled(run) then [acts[0].e] else [];
      EmittedBeforeCancelCons(acts, Cancelled(run));
      assert run.accepted + head + EmittedBeforeCancel(acts[1..], Cancelled(next))
          == run.accepted + (head + EmittedBeforeCancel(acts[1..], Cancelled(next)));
    }
  }

  /** One action adds the emitted event to the feed unless the run is cancelled, and only a cancel request cancels. */
  lemma StepAccepts(run: Run, a: Action)
    requires RunValid(run) && Enabled(run, a)
    ensures RunValid(Step(run, a))
    ensures Step(run, a).accepted == run.accepted + (if a.HandlerEmit? && !Cancelled(run) then [a.e] else [])
    ensures Cancelled(Step(run, a)) == (Cancelled(run) || a.RequestCancel?)
  {
  }

  /** The first action of a schedule contributes its event, then the rest continues. */
  lemma EmittedBeforeCancelCons(acts: seq<Action>, cancelled: bool)
    requires acts != []
    ensures EmittedBeforeCancel(acts, cancelled)
              == (if acts[0].HandlerEmit? && !cancelled then [acts[0].e] else [])
                 + EmittedBeforeCancel(acts[1..], cancelled || acts[0].RequestCancel?)
  {
  }

  lemma {:induction false} NoCancelEmitsAll(acts: seq<Action>)
    requires forall i :: 0 <= i < |acts| ==> !acts[i].RequestCancel?
    ensures EmittedBeforeCancel(acts, false) == AllEmitted(acts)
  {
    if acts != [] {
      NoCancelEmitsAll(acts[1..]);
    }
  }

  /**
   * Whatever the interleaving, once a run has drained the consumer has received
   * exactly the events the handler emitted before the first cancellation, in
   * emission order; with no cancellation, every event it emitted.
   */
  lemma StreamDelivery(streamId: string, bufferSize: nat, acts: seq<Action>)
    requires Replay(NewRun(streamId, bufferSize), acts).Some?
    requires Replay(NewRun(streamId, bufferSize), acts).value.phase == Drained
    ensures Replay(NewRun(streamId, bufferSize), acts).value.delivered == EmittedBeforeCancel(acts, false)
    ensures (forall i :: 0 <= i < |acts| ==> !acts[i].RequestCancel?) ==>
              Replay(NewRun(streamId, bufferSize), acts).value.delivered == AllEmitted(acts)
  {
    var run := NewRun(streamId, bufferSize);
    ReplayAccepts(run, acts);
    assert !Cancelled(run);
    var last := Replay(run, acts).value;
    assert last.buffer == [] && last.delivered + [] == last.delivered;
    assert [] + EmittedBeforeCancel(acts, false) == EmittedBeforeCancel(acts, false);
    if forall i :: 0 <= i < |acts| ==> !acts[i].RequestCancel? {
      NoCancelEmitsAll(acts);
    }
  }

  /** A schedule where the consumer takes each event as soon as the handler emits it. */
  function Lockstep(events: seq<Event>): (acts: seq<Action>)
    ensures |acts| == 2 * |events|
    ensures AllEmitted(acts) == events
  {
    if events == [] then []
    else
      var rest := Lockstep(events[1..]);
      assert AllEmitted([HandlerEmit(events[0]), ConsumerTake] + rest) == [events[0]] + AllEmitted(rest) by {
        AllEmittedAppend([HandlerEmit(events[0]), ConsumerTake], rest);
      }
      assert [events[0]] + events[1..] == events;
      [HandlerEmit(events[0]), ConsumerTake] + rest
  }

  lemma {:induction false} AllEmittedAppend(a: seq<Action>, b: seq<Action>)
    ensures AllEmitted(a + b) == AllEmitted(a) + AllEmitted(b)
    decreases |a|
  {
    if a != [] {
      assert (a + b)[0] == a[0] && (a + b)[1..] == a[1..] + b;
      AllEmittedAppend(a[1..], b);
      var h := if a[0].HandlerEmit? then [a[0].e] else [];
      assert h + (AllEmitted(a[1..]) + AllEmitted(b)) == (h + AllEmitted(a[1..])) + AllEmitted(b);
    } else {
      assert a + b == b;
    }
  }

  /** The whole life of an uncancelled run served in lock step: start, the events, a normal return, the end of the feed. */
  function ServeAll(events: seq<Event>): seq<Action> {
    [Start] + (Lockstep(events) + [HandlerEnd(Returned), ConsumerEnd])
  }

  /** Replaying two schedules in a row is replaying their concatenation. */
  lemma {:induction false} ReplayAppend(run: Run, a: seq<Action>, b: seq<Action>)
    ensures Replay(run, a + b) == if Replay(run, a).Some? then Replay(Replay(run, a).value, b) else None
    decreases |a|
  {
    if a != [] {
      assert (a + b)[0] == a[0] && (a + b)[1..] == a[1..] + b;
      if Enabled(run, a[0]) {
        ReplayAppend(Step(run, a[0]), a[1..], b);
      }
    } else {
      assert a + b == b;
    }
  }

  /** Served in lock step, a running uncancelled run accepts and delivers every event and ends with an empty buffer again. */
  lemma {:induction false} ReplayLockstep(run: Run, events: seq<Event>)
    requires run.phase == Running && run.buffer == [] && !Cancelled(run)
    ensures Replay(run, Lockstep(events)).Some?
    ensures var last := Replay(run, Lockstep(events)).value;
            && last.entry == run.entry && last.bufferSize == run.bufferSize
            && last.phase == Running && last.buffer == []
            && last.accepted == run.accepted + events && last.delivered == run.delivered + events
    decreases |events|
  {
    if events != [] {
      var e := events[0];
      var next := run.(accepted := run.accepted + [e], delivered := run.delivered + [e]);
      assert Lockstep(events) == [HandlerEmit(e), ConsumerTake] + Lockstep(events[1..]);
      ReplayEmitTake(run, e, Lockstep(events[1..]));
      ReplayLockstep(next, events[1..]);
      ConsThenRest(run.accepted, events);
      ConsThenRest(run.delivered, events);
    } else {
      assert run.accepted + events == run.accepted && run.delivered + events == run.delivered;
    }
  }

  /** Appending the first event, then the rest, appends them all. */
  lemma ConsThenRest(prefix: seq<Event>, events: seq<Event>)
    requires events != []
    ensures (prefix + [events[0]]) + events[1..] == prefix + events
  {
    assert [events[0]] + events[1..] == events;
  }

  /** One event emitted and taken at once passes straight through the buffer. */
  lemma ReplayEmitTake(run: Run, e: Event, rest: seq<Action>)
    requires run.phase == Running && run.buffer == [] && !Cancelled(run)
    ensures Replay(run, [HandlerEmit(e), ConsumerTake] + rest)
              == Replay(run.(accepted := run.accepted + [e], delivered := run.delivered + [e]), rest)
  {
    var r1 := Emit(run, e);
    var acts := [HandlerEmit(e), ConsumerTake] + rest;
    assert acts[0] == HandlerEmit(e) && acts[1..] == [ConsumerTake] + rest;
    assert ([ConsumerTake] + rest)[0] == ConsumerTake && ([ConsumerTake] + rest)[1..] == rest;
    assert Receive(r1) == run.(accepted := run.accepted + [e], delivered := run.delivered + [e]);
  }

  /**
   * A fresh run served in lock step is a valid schedule: it drains, and the
   * consumer has received exactly the given events.
   */
  lemma ServeAllDelivers(streamId: string, bufferSize: nat, events: seq<Event>)
    ensures Replay(NewRun(streamId, bufferSize), ServeAll(events)).Some?
    ensures Replay(NewRun(streamId, bufferSize), ServeAll(events)).value.phase == Drained
    ensures Replay(NewRun(streamId, bufferSize), ServeAll(events)).value.delivered == events
  {
    var r0 := NewRun(streamId, bufferSize);
    var r1 := StartHandler(r0);
    var tail := [HandlerEnd(Returned), ConsumerEnd];
    var acts := ServeAll(events);
    assert acts[0] == Start && acts[1..] == Lockstep(events) + tail;
    assert Replay(r0, acts) == Replay(r1, Lockstep(events) + tail);
    ReplayAppend(r1, Lockstep(events), tail);
    ReplayLockstep(r1, events);
    var r2 := r1.(accepted := events, delivered := events);
    var r3 := Finish(r2, Returned);
    assert tail[0] == HandlerEnd(Returned) && tail[1..] == [ConsumerEnd];
    assert [ConsumerEnd][1..] == [];
    assert Replay(r2, tail) == Some(EndRun(r3));
  }

  // ---------------------------------------------------------------------
  // The manager.

  /** `StreamManager`: every run started so far, the id-to-entry map and its key order. */
  datatype Manager = Manager(bufferSize: nat, runs: seq<Run>, table: map<string, nat>, order: seq<string>)

  /** Run `i` is the newest run started under its id. */
  ghost predicate Newest(m: Manager, i: nat)
    requires i < |m.runs|
  {
    forall j :: i < j < |m.runs| ==> m.runs[j].entry.streamId != m.runs[i].entry.streamId
  }

  /**
   * The map is consistent with the runs: each id maps to the newest run
   * started under it, a run is in the map until it drains, and the key order
   * lists every key once.
   */
  ghost predicate Valid(m: Manager) {
    && (forall i :: 0 <= i < |m.runs| ==> RunValid(m.runs[i]) && m.runs[i].bufferSize == m.bufferSize)
    && (forall id :: id in m.table ==>
          && m.table[id] < |m.runs|
          && m.runs[m.table[id]].entry.streamId == id
          && m.runs[m.table[id]].phase != Drained
          && Newest(m, m.table[id]))
    && (forall i :: 0 <= i < |m.runs| && Newest(m, i) && m.runs[i].phase != Drained ==>
          m.runs[i].entry.streamId in m.table && m.table[m.runs[i].entry.streamId] == i)
    && Distinct(m.order)
    && (forall id :: id in m.table <==> id in m.order)
  }

  /** The entry the map holds for `id`, if any (`_streams.get(id)`). */
  function EntryOf(m: Manager, id: string): Option<Entry>
    requires Valid(m)
  {
    if id in m.table then Some(m.runs[m.table[id]].entry) else None
  }

  /** An id whose entry is in the map and not done. */
  predicate IsLive(m: Manager, id: string)
    requires Valid(m)
  {
    EntryOf(m, id).Some? && !EntryOf(m, id).value.done
  }

  /** `StreamManager(buffer_size=...)` */
  function NewManager(bufferSize: nat): (m: Manager)
    ensures Valid(m)
    ensures forall id :: EntryOf(m, id) == None
  {
    Manager(bufferSize, [], map[], [])
  }

  /** Replace run `i`, keeping the map. */
  function WithRun(m: Manager, i: nat, run: Run): (r: Manager)
    requires i < |m.runs|
    ensures |r.runs| == |m.runs| && r.runs[i] == run && r.table == m.table && r.order == m.order
  {
    m.(runs := m.runs[i := run])
  }

  /** Replacing a run by one with the same id and the same drained-ness keeps the manager consistent. */
  lemma WithRunValid(m: Manager, i: nat, run: Run)
    requires Valid(m) && i < |m.runs|
    requires RunValid(run) && run.bufferSize == m.bufferSize
    requires run.entry.streamId == m.runs[i].entry.streamId
    requires (run.phase == Drained) == (m.runs[i].phase == Drained)
    ensures Valid(WithRun(m, i, run))
  {
    var m' := WithRun(m, i, run);
    assert forall j :: 0 <= j < |m.runs| ==> m'.runs[j].entry.streamId == m.runs[j].entry.streamId;
    forall j | 0 <= j < |m.runs|
      ensures Newest(m', j) == Newest(m, j)
    {
      assert forall k :: j < k < |m.runs| ==> m'.runs[k].entry.streamId == m.runs[k].entry.streamId;
    }
  }

  /** The manager with one more run, registered under `id`. */
  function AddRun(m: Manager, id: string): Manager {
    Manager(m.bufferSize, m.runs + [NewRun(id, m.bufferSize)], m.table[id := |m.runs|],
            if id in m.table then m.order else m.order + [id])
  }

  lemma AddRunValid(m: Manager, id: string)
    requires Valid(m)
    ensures Valid(AddRun(m, id))
  {
    var m' := AddRun(m, id);
    var n := |m.runs|;
    assert forall j :: 0 <= j < n ==> m'.runs[j] == m.runs[j];
    assert m'.runs[n].entry.streamId == id && m'.runs[n].phase == Registered;
    forall j | 0 <= j < n && Newest(m', j)
      ensures Newest(m, j) && m.runs[j].entry.streamId != id
    {
      assert m'.runs[n].entry.streamId != m'.runs[j].entry.streamId;
    }
    forall k | k in m'.table
      ensures m'.table[k] < |m'.runs| && m'.runs[m'.table[k]].entry.streamId == k
      ensures m'.runs[m'.table[k]].phase != Drained && Newest(m', m'.table[k])
    {
      if k != id {
        var j := m.table[k];
        assert Newest(m, j);
        forall l | j < l < |m'.runs|
          ensures m'.runs[l].entry.streamId != m'.runs[j].entry.streamId
        {
          if l < n {
            assert m'.runs[l] == m.runs[l];
          }
        }
      }
    }
    assert Distinct(m'.order) by {
      if id !in m.table {
        assert id !in m.order;
      }
    }
  }

  /**
   * The first step of `run_stream`: an empty id is replaced by a fresh one,
   * and a not-done entry for the id is put in the map before any event is
   * yielded. A reused id takes over the map slot (and keeps its position).
   * Returns the new manager, the stream id and the run's index.
   */
  function RunStream(m: Manager, streamId: string, freshId: Uuid): (r: (Manager, string, nat))
    requires Valid(m)
    ensures Valid(r.0)
    ensures r.1 == if streamId == "" then freshId else streamId
    ensures r.1 != ""
    ensures r.2 == |m.runs| && r.0.runs == m.runs + [NewRun(r.1, m.bufferSize)]
    ensures EntryOf(r.0, r.1) == Some(Entry(r.1, None, false)) && IsLive(r.0, r.1)
    ensures forall id :: id != r.1 ==> EntryOf(r.0, id) == EntryOf(m, id)
  {
    var id := if streamId == "" then freshId else streamId;
    AddRunValid(m, id);
    var m' := AddRun(m, id);
    assert forall k :: k in m.table ==> m'.runs[m.table[k]] == m.runs[m.table[k]];
    (m', id, |m.runs|)
  }

  /** The handler task of run `i` starts. */
  function StartRun(m: Manager, i: nat): (r: Manager)
    requires Valid(m) && i < |m.runs| && m.runs[i].phase == Registered
    ensures r == WithRun(m, i, StartHandler(m.runs[i]))
    ensures Valid(r)
  {
    WithRunValid(m, i, StartHandler(m.runs[i]));
    WithRun(m, i, StartHandler(m.runs[i]))
  }

  /** The handler of run `i` emits `e`. */
  function EmitTo(m: Manager, i: nat, e: Event): (r: Manager)
    requires Valid(m) && i < |m.runs| && CanEmit(m.runs[i])
    ensures r == WithRun(m, i, Emit(m.runs[i], e))
    ensures Valid(r)
  {
    WithRunValid(m, i, Emit(m.runs[i], e));
    WithRun(m, i, Emit(m.runs[i], e))
  }

  /** The timeout of run `i` expires while its handler runs: its scope is cancelled. */
  function Timeout(m: Manager, i: nat): (r: Manager)
    requires Valid(m) && i < |m.runs| && m.runs[i].phase == Running
    ensures r == WithRun(m, i, CancelScope(m.runs[i]))
    ensures Cancelled(r.runs[i])
    ensures Valid(r)
  {
    WithRunValid(m, i, CancelScope(m.runs[i]));
    WithRun(m, i, CancelScope(m.runs[i]))
  }

  /** The handler of run `i` ends. */
  function FinishRun(m: Manager, i: nat, ending: Ending): (r: Manager)
    requires Valid(m) && i < |m.runs| && m.runs[i].phase == Running
    ensures r == WithRun(m, i, Finish(m.runs[i], ending))
    ensures Valid(r)
  {
    WithRunValid(m, i, Finish(m.runs[i], ending));
    WithRun(m, i, Finish(m.runs[i], ending))
  }

  /** The consumer of run `i` takes an event. */
  function ReceiveFrom(m: Manager, i: nat): (r: Manager)
    requires Valid(m) && i < |m.runs| && CanReceive(m.runs[i])
    ensures r == WithRun(m, i, Receive(m.runs[i]))
    ensures Valid(r)
  {
    WithRunValid(m, i, Receive(m.runs[i]));
    WithRun(m, i, Receive(m.runs[i]))
  }

  /** The manager once run `i` is over and its own entry, if the map still holds it, is popped. */
  function PopOwn(m: Manager, i: nat): Manager
    requires i < |m.runs| && FeedEnded(m.runs[i])
  {
    var id := m.runs[i].entry.streamId;
    var owned := id in m.table && m.table[id] == i;
    Manager(m.bufferSize, m.runs[i := EndRun(m.runs[i])],
            if owned then m.table - {id} else m.table,
            if owned then Without(m.order, id) else m.order)
  }

  lemma PopOwnValid(m: Manager, i: nat)
    requires Valid(m)
    requires i < |m.runs| && FeedEnded(m.runs[i])
    ensures Valid(PopOwn(m, i))
  {
    var m' := PopOwn(m, i);
    var id := m.runs[i].entry.streamId;
    assert |m'.runs| == |m.runs|;
    assert forall j :: 0 <= j < |m.runs| && j != i ==> m'.runs[j] == m.runs[j];
    assert m'.runs[i].entry == m.runs[i].entry && m'.runs[i].phase == Drained;
    assert RunValid(m'.runs[i]);
    forall j | 0 <= j < |m.runs|
      ensures Newest(m', j) == Newest(m, j)
    {
      assert forall k :: j < k < |m.runs| ==> m'.runs[k].entry.streamId == m.runs[k].entry.streamId;
    }
    forall k | k in m'.table
      ensures m'.table[k] == m.table[k] && m'.table[k] != i
    {
    }
    forall j | 0 <= j < |m'.runs| && Newest(m', j) && m'.runs[j].phase != Drained
      ensures m'.runs[j].entry.streamId in m'.table && m'.table[m'.runs[j].entry.streamId] == j
    {
      assert j != i;
      assert Newest(m, j) && m.runs[j].phase != Drained;
    }
  }

  /**
   * `run_stream` finishes after its feed is drained: the run is over and its
   * own entry leaves the map. Only the run's own entry is removed; an id that
   * a newer run has taken over stays in the map.
   */
  function EndOfFeed(m: Manager, i: nat): (r: Manager)
    requires Valid(m)
    requires i < |m.runs| && FeedEnded(m.runs[i])
    ensures Valid(r)
    ensures r.runs == m.runs[i := EndRun(m.runs[i])]
    ensures forall id :: id in m.table && m.table[id] == i ==> id !in r.table
    ensures forall id :: id in m.table && m.table[id] != i ==> id in r.table && r.table[id] == m.table[id]
    ensures r.table.Keys <= m.table.Keys
  {
    PopOwnValid(m, i);
    PopOwn(m, i)
  }

  /**
   * `cancel_stream(id)`: false, with nothing changed, when the map holds no
   * entry for the id, the entry is done, or its handler has not attached a
   * scope yet; otherwise the scope is cancelled and the answer is true.
   */
  function CancelStream(m: Manager, id: string): (r: (Manager, bool))
    requires Valid(m)
    ensures r.1 <==> IsLive(m, id) && EntryOf(m, id).value.scope.Some?
    ensures !r.1 ==> r.0 == m
    ensures r.1 ==> r.0 == WithRun(m, m.table[id], CancelScope(m.runs[m.table[id]]))
    ensures r.1 ==> Cancelled(r.0.runs[m.table[id]]) && r.0.table == m.table
    ensures Valid(r.0)
  {
    if id !in m.table then (m, false)
    else
      var i := m.table[id];
      var entry := m.runs[i].entry;
      if entry.done then (m, false)
      else if entry.scope.Some? then
        WithRunValid(m, i, CancelScope(m.runs[i]));
        (WithRun(m, i, CancelScope(m.runs[i])), true)
      else (m, false)
  }

  /** Ids in `ids` whose entries are not done, in the same order. */
  function LiveAmong(m: Manager, ids: seq<string>): (r: seq<string>)
    requires Valid(m)
    requires forall id :: id in ids ==> id in m.table
    ensures forall id :: id in r <==> id in ids && IsLive(m, id)
    ensures Distinct(ids) ==> Distinct(r)
  {
    if ids == [] then []
    else
      var rest := LiveAmong(m, ids[1..]);
      var head := if IsLive(m, ids[0]) then [ids[0]] else [];
      assert Distinct(ids) ==> Distinct(head + rest) by {
        if Distinct(ids) {
          assert ids[0] !in ids[1..];
          DistinctCons(head, rest);
        }
      }
      head + rest
  }

  /** `active_streams`: exactly the ids whose entries are in the map and not done, each once. */
  function ActiveStreams(m: Manager): (r: seq<string>)
    requires Valid(m)
    ensures forall id :: id in r <==> IsLive(m, id)
    ensures Distinct(r)
  {
    LiveAmong(m, m.order)
  }

  /** With the manager consistent, `cancel_stream` succeeds exactly on an id whose newest run is running. */
  lemma CancelSucceedsOnRunning(m: Manager, id: string)
    requires Valid(m)
    ensures CancelStream(m, id).1 <==> id in m.table && m.runs[m.table[id]].phase == Running
  {
  }

  /** After a successful `cancel_stream`, that stream's handler can no longer get an event into the feed. */
  lemma CancelThenEmitIsDropped(m: Manager, id: string, e: Event)
    requires Valid(m) && CancelStream(m, id).1
    ensures var m' := CancelStream(m, id).0;
            var i := m.table[id];
            CanEmit(m'.runs[i]) && EmitTo(m', i, e) == m'
  {
  }

  // ---------------------------------------------------------------------
  // `run_stream` as written: the final `pop(stream_id)` removes whatever entry
  // the map holds for the id, even one that a newer run put there.

  /** `self._streams.pop(stream_id, None)`, as the source does it. */
  function EndOfFeedAsWritten(m: Manager, i: nat): (r: Manager)
    requires Valid(m)
    requires i < |m.runs| && FeedEnded(m.runs[i])
    ensures r.runs == m.runs[i := EndRun(m.runs[i])]
    ensures m.runs[i].entry.streamId !in r.table
  {
    var id := m.runs[i].entry.streamId;
    Manager(m.bufferSize, m.runs[i := EndRun(m.runs[i])], m.table - {id}, Without(m.order, id))
  }

  /**
   * The source's unconditional pop and the owner-only pop give the same
   * manager exactly when no newer run has taken the id over: either the map
   * no longer holds the id, or it still points at the run that just ended.
   */
  lemma EndOfFeedAgrees(m: Manager, i: nat)
    requires Valid(m)
    requires i < |m.runs| && FeedEnded(m.runs[i])
    ensures var id := m.runs[i].entry.streamId;
            EndOfFeedAsWritten(m, i) == EndOfFeed(m, i) <==> id !in m.table || m.table[id] == i
  {
    var id := m.runs[i].entry.streamId;
    if id !in m.table {
      assert id !in m.order;
      WithoutAbsent(m.order, id);
      assert m.table - {id} == m.table;
    } else if m.table[id] != i {
      assert id in EndOfFeed(m, i).table;
    }
  }

  /** Two streams started under the same caller-supplied id; the first has ended, the second runs. */
  function ReusedIdScenario(): Manager {
    var m0 := NewManager(DefaultBufferSize);
    var (m1, _, first) := RunStream(m0, "x", ScenarioFresh);
    var m2 := StartRun(m1, first);
    var m3 := FinishRun(m2, first, Returned);
    var (m4, _, second) := RunStream(m3, "x", ScenarioFresh);
    StartRun(m4, second)
  }

  /** The scenario's state: the first run closed, the second running, the map pointing at the second. */
  function ReusedIdState(): Manager {
    Manager(DefaultBufferSize, [ScenarioRun(true, Closed), ScenarioRun(false, Running)], map["x" := 1], ["x"])
  }

  /** A run under id "x" that has started its handler and queued nothing. */
  function ScenarioRun(done: bool, phase: Phase): Run {
    Run(Entry("x", Some(Scope(false)), done), DefaultBufferSize, [], [], [], phase)
  }

  /** A run under id "x" just registered. */
  function ScenarioNewRun(): Run {
    NewRun("x", DefaultBufferSize)
  }

  const ScenarioFresh: Uuid := "00000000000000000000000000000000"

  lemma ReusedIdFirstRun()
    ensures RunStream(NewManager(DefaultBufferSize), "x", ScenarioFresh)
              == (Manager(DefaultBufferSize, [ScenarioNewRun()], map["x" := 0], ["x"]), "x", 0)
  {
    var m0 := NewManager(DefaultBufferSize);
    assert m0.runs + [ScenarioNewRun()] == [ScenarioNewRun()];
    assert m0.order + ["x"] == ["x"];
    assert AddRun(m0, "x") == Manager(DefaultBufferSize, [ScenarioNewRun()], map["x" := 0], ["x"]);
  }

  lemma ReusedIdFirstEnds()
    requires Valid(Manager(DefaultBufferSize, [ScenarioNewRun()], map["x" := 0], ["x"]))
    ensures var m2 := StartRun(Manager(DefaultBufferSize, [ScenarioNewRun()], map["x" := 0], ["x"]), 0);
            m2 == Manager(DefaultBufferSize, [ScenarioRun(false, Running)], map["x" := 0], ["x"])
            && FinishRun(m2, 0, Returned) == Manager(DefaultBufferSize, [ScenarioRun(true, Closed)], map["x" := 0], ["x"])
  {
  }

  lemma ReusedIdSecondRun()
    requires Valid(Manager(DefaultBufferSize, [ScenarioRun(true, Closed)], map["x" := 0], ["x"]))
    ensures RunStream(Manager(DefaultBufferSize, [ScenarioRun(true, Closed)], map["x" := 0], ["x"]), "x", ScenarioFresh)
              == (Manager(DefaultBufferSize, [ScenarioRun(true, Closed), ScenarioNewRun()], map["x" := 1], ["x"]), "x", 1)
  {
    var m3 := Manager(DefaultBufferSize, [ScenarioRun(true, Closed)], map["x" := 0], ["x"]);
    assert m3.runs + [ScenarioNewRun()] == [ScenarioRun(true, Closed), ScenarioNewRun()];
    assert AddRun(m3, "x") == Manager(DefaultBufferSize, [ScenarioRun(true, Closed), ScenarioNewRun()], map["x" := 1], ["x"]);
  }

  lemma ReusedIdSecondStarts()
    requires Valid(Manager(DefaultBufferSize, [ScenarioRun(true, Closed), ScenarioNewRun()], map["x" := 1], ["x"]))
    ensures StartRun(Manager(DefaultBufferSize, [ScenarioRun(true, Closed), ScenarioNewRun()], map["x" := 1], ["x"]), 1)
              == ReusedIdState()
  {
  }

  lemma ReusedIdScenarioState()
    ensures ReusedIdScenario() == ReusedIdState()
    ensures Valid(ReusedIdScenario())
  {
    ReusedIdFirstRun();
    ReusedIdFirstEnds();
    ReusedIdSecondRun();
    ReusedIdSecondStarts();
  }

  /**
   * The scenario is a consistent state, and draining the first stream's feed
   * with the source's `pop` drops the second, still running stream from the
   * map, the map that `cancel_stream` and `active_streams` read. Popping only
   * the run's own entry keeps the second stream cancellable.
   */
  lemma ReusedIdPopDropsLiveStream()
    ensures Valid(ReusedIdScenario())
    ensures FeedEnded(ReusedIdScenario().runs[0])
    ensures ReusedIdScenario().runs[1].phase == Running
    ensures var asWritten := EndOfFeedAsWritten(ReusedIdScenario(), 0);
            asWritten.runs[1].phase == Running && "x" !in asWritten.table
    ensures CancelStream(EndOfFeed(ReusedIdScenario(), 0), "x").1
  {
    ReusedIdScenarioState();
    var fixed := EndOfFeed(ReusedIdState(), 0);
    assert fixed.table["x"] == 1;
  }
}

=== FILE: wrappers.dfy ===
/** Failure-compatible wrappers used across the gateway model. */
module Wrappers {

  /** A value that may be absent (Python's `None`). */
  datatype Option<+T> = None | Some(value: T) {

    /** Returns the value in Some, or the given default if None. */
    function GetOr(default: T): T {
      match this
      case Some(v) => v
      case None => default
    }
  }

  /** Either a value or an error (a Python call that returns or raises). */
  datatype Result<+R, +E> = Success(value: R) | Failure(error: E)
}
